=== FILE: README.md ===
# Discord Media Tool — a Dafny model of the encode core

Discord Media Tool re-encodes a video (or audio, or GIF) so that it fits a
target file size. It asks ffprobe for the file's streams and duration, turns
the target size and duration into a bitrate, runs ffmpeg twice (two-pass
x264 or VP9), removes ffmpeg's two-pass statistics files, and reports progress
by scanning ffmpeg's `-progress` key=value stream. The repository has two
variants of this core, and both are modelled:

- `DMT.go`: `getVideoInfo`, `x264Encode`/`vp9Encode`, `calculateTarget`
  (a 150 kbps leeway) and `beginEncode` are modelled by module `Dmt`.
- `encoding.go`: `getMediaInfo`, `videoEncode`, `audioEncode`, `gifConvert`,
  `calculateTarget` (an optional 0.98 safety factor), the `-fs` size cap and
  the read loop of `TempTCPProgress` are modelled by modules `Encoding` and
  `Progress`.

Shared pieces live in their own modules:

- `Strings`: Go's `strings.Split` for a one-character separator, with
  `Join` as its inverse, and `strings.Contains`.
- `FilePath`: Go's `filepath.Base`, `Dir`, `Ext` and `strings.TrimSuffix`,
  as they behave on Windows.
- `Bitrate`: the size-over-duration rate.
- `PassLogs`: the removal of the two statistics files.
- `Wrappers`: `Option`.

How the model is built:

- The program's global flags are fields of an immutable state record
  (`Dmt.Ui`, `Encoding.Globals`). Each operation returns the new record
  together with the sequence of external actions it attempted, in order.
- The success of each ffmpeg run and each file removal is a boolean
  parameter. An encode is then a function of those outcomes.
- ffprobe's report is given already decoded, as a datatype of probe
  outcomes. In `Dmt` each way probing can fail is a constructor of it. In
  `Encoding` a failed probe is a constructor, and a JSON error is the
  `jsonOk` field of the decoded report, because `getMediaInfo` carries on
  with what was decoded.
- Floating-point values are modelled as `real`. A division by a zero
  duration, which gives Go an infinity or NaN rather than a panic, is the
  `NonFinite` rate.

## Model

| member | source | states |
|---|---|---|
| Dmt.FirstVideo | DMT.go:68-77 | the index found is the first stream whose codec type is `video`; when there is none, no stream is a video stream |
| Dmt.GetVideoInfo | DMT.go:28-79 | a failed probe or an undecodable report marks the file invalid and returns empty values; otherwise the flag is kept, and the result is the first video stream's type, width and height with its own duration, or the container's duration when the stream's is empty; with no video stream the values are empty |
| Dmt.OutputStem | DMT.go:84-86 | the stem used for output names contains neither `/` nor `.` |
| Dmt.OutputStemPosition | DMT.go:84-86 | the stem is the part of the path after the last `/` and up to the first `.` after it |
| Dmt.OutputNameShape | DMT.go:92 | `OutputName`, the file both passes write, is `./`, then the stem, then `_x264.mp4` for compression 0 or `_vp9.webm` otherwise; no `/` follows the leading `./` |
| Dmt.OnlySlashSeparates | DMT.go:84-86 | a path without `/`, even one whose directories are written with `\`, gives as stem everything up to its first `.` |
| Dmt.CalculateTarget | DMT.go:200-204 | the rate is finite exactly when the duration is non-zero, and then the rate plus the 150 kbps leeway, over the whole duration, adds up to the size in kilobits |
| Dmt.TargetIsRawMinusLeeway | DMT.go:201-203 | the target is the size-filling rate minus 150 kbps |
| Dmt.TargetMonotoneInSize | DMT.go:200-204 | for a positive duration, a larger size never gives a smaller target |
| Dmt.TargetExample | DMT.go:200-204 | 10 MB over 60 s gives 3550/3 kbps |
| Dmt.TwoPassEncode | DMT.go:82-141 | pass 1 runs first; a failed pass 1 ends the encode, otherwise pass 2 runs right after it; every pass writes the stem-based output at the target rate; the clean-up comes only after both passes, happens exactly when both succeeded, and is then exactly the removal of the log file and then the mbtree file, each followed by a log line if it failed; the only flag written is `encodeError`, which is raised by a failed pass |
| Dmt.SecondPassThenCleanup | DMT.go:112-140 | pass 2 runs first; a failure ends the run and raises `encodeError`; after a success the rest is exactly the removal of the two statistics files |
| Dmt.PrependFirstPass | DMT.go:104-113 | putting pass 1 before pass 2 and its clean-up makes pass 2 the second effect, keeps the clean-up after both passes, and keeps the removals |
| Dmt.RemovalOutcomeOnlyLogged | DMT.go:131-139 | whether a removal fails changes nothing but the log |
| Dmt.BeginEncode | DMT.go:207-238 | the encoder runs exactly when the report decoded, the file was not already marked invalid and the probed duration parses, and then it is the chosen two-pass encode at the target for the parsed size (0 when the size field does not parse) and that duration; a failed probe aborts with the file marked invalid; an abort runs nothing and changes only the busy flag, which it clears, and the invalid-file flag as `getVideoInfo` reports it; an encode that started ends with the status "Done!" even when a pass failed |
| Dmt.NoVideoStreamAborts | DMT.go:217-228 | a file without a video stream is not marked invalid, but its empty duration does not parse, so nothing is run and the busy flag is cleared |
| Encoding.HasUsableStream | encoding.go:55-59 | the loop accepts exactly when the duration is non-empty and some stream has the requested codec type |
| Encoding.Validate | encoding.go:55-62 | the streams are kept; a report with a non-empty duration and a stream of the requested type comes back unchanged, and any other comes back with the duration `invalid` |
| Encoding.ValidateIdempotent | encoding.go:55-62 | validating a validated report changes nothing |
| Encoding.GetMediaInfo | encoding.go:35-63 | only `invalidFile` changes, raised by a probe failure or a JSON error; a failed probe returns the zero report without the sentinel; after a JSON error the partially decoded report is still validated; a usable report comes back unchanged, any other with the duration `invalid` |
| Encoding.BesideNamed | encoding.go:184 | any output beside the input is the input's directory and a `\`, then the input's stem, then the suffix, each readable back by position; the stem followed by the input's extension is its base name, and for a path with an element the stem holds no separator |
| Encoding.FirstPassOutputShape | encoding.go:74-99 | pass 1 writes into the working directory, not beside the input: `./`, the input's stem with its extension kept, then `_x264.mp4` for codec type 0 and `_vp9.webm` otherwise; for a path with an element nothing after `./` is a separator |
| Encoding.SecondPassOutputShape | encoding.go:112-137 | pass 2 writes beside the input, named after its stem, with `_h264.mp4` for codec type 0 and `_vp9.webm` otherwise |
| Encoding.AudioOutputShape | encoding.go:183-200 | audio is written beside the input, named after its stem, with `_mp3.mp3` for codec type 0 and `_opus.opus` otherwise |
| Encoding.GifOutputShape | encoding.go:218-219 | a GIF is written beside the input, named after its stem, with `_gif.gif` |
| Encoding.CalculateTarget | encoding.go:240-248 | the rate is finite exactly when the duration is non-zero, and then the rate over the whole duration is the size in kilobits, times 0.98 in conservative mode |
| Encoding.ConservativeIsStrictlySmaller | encoding.go:243-247 | the conservative target is 0.98 times the plain one, hence strictly below it when the plain one is positive |
| Encoding.TargetMonotoneInSize | encoding.go:240-248 | for a positive duration, a larger size never gives a smaller target, in either mode |
| Encoding.TargetExample | encoding.go:240-248 | 10 MB over 60 s gives 4000/3 kbps, or 3920/3 kbps in conservative mode |
| Encoding.Truncate | encoding.go:153 | a conversion to `int` drops the fraction toward zero: the result lies within one of the value, on the side of zero |
| Encoding.FsLimit | encoding.go:153 | for a positive target the `-fs` cap is a whole, non-negative number of bytes within one byte of 99% of the target in mebibytes, so below the target |
| Encoding.SecondPassRun | encoding.go:159-178 | pass 2 runs first, with `encodingSecondPass` raised; a failure ends the run; after a success the rest is exactly the removal of the two statistics files; afterwards the flag is down and a failure has raised `encodeError` |
| Encoding.VideoEncode | encoding.go:65-180 | pass 1 runs first, on `./<base name>_x264.mp4` or `_vp9.webm`; pass 2 runs exactly when pass 1 succeeded and, with `-fs` on, the size parsed, and otherwise the encode ends after pass 1; pass 2 writes beside the input (`_h264.mp4` or `_vp9.webm`), capped when `-fs` is on, under the caller's flags with only `encodingFirstPass` lowered and `encodingSecondPass` raised; the clean-up comes only after the passes, happens exactly when both passes ran and succeeded, and is then exactly the removal of the two statistics files; `encodeError` records exactly a failure; neither pass flag is left up by a run of pass 2; `invalidFile` and `encodingNow` are untouched |
| Encoding.PrependFirstPass | encoding.go:102-160 | putting pass 1 before pass 2 and its clean-up keeps pass 2 the only second pass, keeps the clean-up after both passes, and keeps the removals |
| Encoding.RemovalOutcomeOnlyLogged | encoding.go:169-177 | whether a removal fails changes nothing but the log |
| Encoding.SinglePassRun | encoding.go:204-213 | one uncapped run; a failure raises `encodeError` and leaves `encodingNow` up, a success clears `encodingNow`; no other flag changes |
| Encoding.AudioEncode | encoding.go:182-214 | one uncapped run, under the flags the caller left, writing the audio output named after the input's stem with `_mp3.mp3` or `_opus.opus`; a failure raises `encodeError` and leaves `encodingNow` up, a success clears `encodingNow`; no other flag changes |
| Encoding.GifConvert | encoding.go:217-237 | one uncapped run, under the flags the caller left, writing the GIF output named after the input's stem with `_gif.gif`; a failure raises `encodeError` and leaves `encodingNow` up, a success clears `encodingNow`; no other flag changes |
| FilePath.AfterLastSeparator | encoding.go:68 | the index just after the last `/` or `\`, with no separator after it |
| FilePath.TrimTrailingSeparators | encoding.go:68 | the result is the longest prefix that does not end in a separator |
| FilePath.FromSlashWritesBackslash | encoding.go:112 | the directory written back has no `/`: every `/` becomes `\`, writing back twice changes nothing, and separators stay separators while every other character is kept |
| FilePath.Base | encoding.go:68 | the base name is never empty: `.` for an empty path, `\` for a path of separators only |
| FilePath.BaseIsLastElement | encoding.go:68 | for a path with an element, the base name is its last element: separator-free, preceded by a separator or the path's start, followed only by trailing separators |
| FilePath.Dir | encoding.go:112 | the directory is never empty, holds no `/`, and is `.` for a path without separators |
| FilePath.DirSeparatorBase | encoding.go:112 | for a path whose last element follows a single separator, directory, `\` and base name put together give back the path with `\` separators |
| FilePath.Ext | encoding.go:125 | the extension is a suffix that is empty or starts with its only `.` and holds no separator; it is empty only when the last element has no `.` |
| FilePath.TrimSuffix | encoding.go:136 | the suffix is removed when the string ends with it, and otherwise the string is unchanged |
| FilePath.StemPlusExt | encoding.go:125 | `Stem`, the base name without its extension: followed by the extension it gives back the base name |
| FilePath.StemHasNoSeparator | encoding.go:125 | the stem of a path with an element holds no separator |
| Strings.FirstIndex | DMT.go:84-85 | the index of the first separator, or the length when there is none |
| Strings.Split | DMT.go:84-85 | a split always has at least one piece, so the last piece of the path and the first piece of the file name always exist |
| Strings.SplitPiecesOmitSeparator | DMT.go:84-85 | no piece of a split contains the separator |
| Strings.SplitThenJoin | DMT.go:84-85 | joining the pieces of a split with the separator gives back the string |
| Strings.JoinThenSplit | DMT.go:84-85 | splitting a join of separator-free pieces gives back the pieces |
| Strings.LastPieceIsSuffix | DMT.go:84 | the last piece is the separator-free suffix after the last separator |
| Strings.ContainsExtends | encoding.go:281 | an occurrence of `progress=end` survives appending more text |
| Strings.ContainsIsInfix | encoding.go:281 | `Contains` holds exactly when the text is some text, then the pattern, then some more text |
| Bitrate.RawTarget | DMT.go:201-202 | the rate is finite exactly when the duration is non-zero, and then the rate over the whole duration is the size in kilobits (8000 per megabyte) |
| Bitrate.RawTargetMonotoneInSize | encoding.go:241-242 | for a positive duration, a larger size never gives a smaller rate |
| Bitrate.RawTargetAntitoneInDuration | encoding.go:241-242 | for a positive size, a longer duration never gives a larger rate |
| PassLogs.RemoveLogs | DMT.go:131-139 | `ffmpeg2pass-0.log` is removed first, then `ffmpeg2pass-0.log.mbtree`, both whatever the first outcome; nothing else is touched; a failure is logged exactly for a removal that failed |
| PassLogs.RemoveLogsOnce | DMT.go:131-139 | each statistics file is removed exactly once: the clean-up is the two removals plus one failure line per failed removal, and every failure line comes right after the removal it reports |
| Progress.DigitRunLength | encoding.go:259 | `\d+` takes the maximal run of digits |
| Progress.CapturedAt | encoding.go:259 | a capture is a non-empty run of digits |
| Progress.RightmostMatch | encoding.go:275-277 | the reference definition of the last match: the match position below the bound with no match after it, or none when nothing matches |
| Progress.NoMatchInsideMatch | encoding.go:275 | no other match starts inside a match, so the non-overlapping scan misses none |
| Progress.ScanFromFindsRightmost | encoding.go:275-277 | `MatchesFrom`, the captures of the left-to-right non-overlapping scan: the last one is the capture at the rightmost match, and there is none exactly when no match starts at or after the scan's start |
| Progress.MatchesAfterMatch | encoding.go:275 | the matches from a match are its capture followed by the matches after the text it consumed |
| Progress.RightmostIsLastMatch | encoding.go:275-277 | a match with no match after its text is the rightmost match |
| Progress.LastCaptureIsRightmost | encoding.go:275-278 | `LastCapture`: there is a last capture exactly when some position matches, and it is the capture at the rightmost match |
| Progress.Atoi | encoding.go:278 | the parsed number is exact when the digits denote a number up to the largest 64-bit integer, and is that largest integer otherwise |
| Progress.ShortRunsReadExactly | encoding.go:278 | up to 18 digits always parse exactly |
| Progress.ScanMeaning | encoding.go:275-286 | `Scan`, the value of the text received: "Complete" exactly when `progress=end` has arrived, "Starting" exactly when neither it nor any `out_time_ms` match has, and otherwise the number the rightmost match's digits denote |
| Progress.CompleteIsFinal | encoding.go:281-283 | once "Complete", always "Complete" however much more text arrives |
| Progress.Label | encoding.go:284-286 | the value `Complete` reads "Complete" and `Starting` reads "Starting..."; a fraction reads as its rendering, or as "Starting..." when that rendering is empty; so the string is never empty |
| Progress.LabelMeaning | encoding.go:274-286 | the progress string is "Complete" once `progress=end` has arrived, whatever follows; "Starting..." while neither the marker nor an `out_time_ms` value has arrived; otherwise the rendering of the rightmost value, or "Starting..." when that rendering is empty |
| Progress.LabelsAfterEachRead | encoding.go:269-286 | one progress value per read |
| Progress.ReadOneMore | encoding.go:274-286 | one more read appends its chunk to the text; the log of changes gains that read's value exactly when it differs from the previous value ("Starting..." before the first read) |
| Progress.LastLabel | encoding.go:274-286 | the last value is the one for all the text received |
| Progress.ChangesFacts | encoding.go:287-290 | `Changes`, the log the loop writes: it never holds the same value twice in a row, never starts with the initial value, ends with the last value, is empty only when every value equals the initial one, and is no longer than the values |
| Progress.ChangesStep | encoding.go:287-290 | one more value keeps the log a change log of the values so far |
| Progress.AppendChange | encoding.go:287-289 | a value that differs from the one before it is logged, and the log still has no repeat in a row and ends with that value |
| Progress.RepeatNoChange | encoding.go:287 | a value equal to the one before it leaves the log unchanged, and the log still describes all the values |
| Progress.LogShape | encoding.go:268-290 | the log of a connection has no value twice in a row, does not start with "Starting...", ends with the final value, is empty only if the value never left "Starting...", and has at most one entry per read |
| Progress.Listen | encoding.go:266-291 | the final progress value depends only on the text received, not on how it was cut into reads, and a value is logged exactly when it differs from the value before it |

## Left out

- `gui.go`, `loop()` and the program's entry point: window layout and event
  handling. `gui.go` belongs to another variant of the program: it calls
  `videoEncode` with three arguments, which matches neither `DMT.go` (which
  has no `videoEncode`) nor `encoding.go` (whose `videoEncode` takes four).
- The ffmpeg argument maps: codec names, presets and the bitrate flag. The
  bitrate string is `strconv.FormatFloat` of the target, and float-to-string
  formatting is not modelled.
- 32-bit float rounding (`float32`) and the difference between an infinite
  and a NaN rate. Arithmetic is exact on reals, and every non-finite rate is
  one value.
- JSON decoding of the ffprobe report: its result, or its failure, is the
  input of `GetVideoInfo` and `GetMediaInfo`.
- `strconv.ParseFloat`: its result is a parameter (`targetSize`, and the
  `parseFloat` function for the probed duration). Out-of-range inputs and
  their error values are not modelled.
- `Encoding.FsLimit`: Go's conversion of an out-of-range float to `int` is
  implementation-defined and is not modelled. The cap is exact truncation.
- The listener of `TempTCPProgress`: opening the TCP socket, the goroutine,
  `panic`, `log.Fatal`, and reading into a 1024-byte buffer. The read loop
  is modelled over the sequence of chunks the connection delivers, ending
  when the reads end. The progress string is a shared global written by the
  goroutine, and its concurrent reads are not modelled.
- `Progress.Listen`: the `%.2f` rendering of `out_time_ms / duration /
  1000000` is the `render` parameter. The duration and float formatting are
  therefore not modelled, and neither is the rendering of large values
  through float64.
- `FilePath.Base` and `FilePath.Dir`: volume names (`C:`), UNC paths and the
  `..`/`.` cleaning that `filepath.Dir` does are not modelled. Both `/` and
  `\` are separators, and `\` is written. Runs of separators inside the
  directory are not collapsed either, so `Dir("a//b/c")` is `a\\b` where Go
  gives `a\b`.
- Log messages, `fmt.Println` and the window's error dialogs.

Behaviour of the code worth noting, which the model keeps:

- `getMediaInfo` keeps going after a JSON error, with the partially decoded
  report.
- `getMediaInfo` accepts a stream only when the container duration is also
  non-empty.
- In `encoding.go` the first-pass output keeps the input's full base name,
  extension included (`clip.mov_vp9.webm`). The second-pass output drops the
  extension and, for codec type 0, uses the suffix `_h264.mp4`.
- Neither variant subtracts an audio allowance from the target.
- `DMT.go` treats only `/` as a separator when it names the output, so a
  path written with `\` (`C:\clips\a.mp4`) is not reduced to its file
  name: the output is `./C:\clips\a_x264.mp4` (`Dmt.OnlySlashSeparates`). Only the file picker
  rewrites `\` to `/`; a path typed into the field keeps it.

=== FILE: bitrate.dfy ===
/** The size-to-bitrate conversion shared by both variants of `calculateTarget`.
    Go computes in float32; the model computes over the reals and keeps only
    the distinction between a finite result and the infinity or NaN that a
    division by a zero duration produces (Go does not panic on it). */
module Bitrate {

  /** The result of a floating-point computation. */
  datatype Rate = Finite(kbps: real) | NonFinite

  /** Kilobits in one megabyte, as the tool counts them (1 MB = 1000 kB, 8 bits each). */
  const KilobitsPerMegabyte: real := 8000.0

  /** The average bitrate, in kilobits per second, that fills `sizeMB`
      megabytes in `seconds` seconds. */
  function RawTarget(sizeMB: real, seconds: real): (r: Rate)
    ensures r.Finite? <==> seconds != 0.0
    ensures r.Finite? ==> r.kbps * seconds == sizeMB * KilobitsPerMegabyte
  {
    if seconds == 0.0 then NonFinite else Finite(sizeMB * KilobitsPerMegabyte / seconds)
  }

  /** A larger target size never gives a smaller bitrate. */
  lemma RawTargetMonotoneInSize(size1: real, size2: real, seconds: real)
    requires seconds > 0.0 && size1 <= size2
    ensures RawTarget(size1, seconds).kbps <= RawTarget(size2, seconds).kbps
  {
    var r1, r2 := RawTarget(size1, seconds).kbps, RawTarget(size2, seconds).kbps;
    assert (r2 - r1) * seconds == (size2 - size1) * KilobitsPerMegabyte;
  }

  /** For a positive size, a longer duration never gives a larger bitrate. */
  lemma RawTargetAntitoneInDuration(size: real, seconds1: real, seconds2: real)
    requires size > 0.0 && 0.0 < seconds1 <= seconds2
    ensures RawTarget(size, seconds1).kbps >= RawTarget(size, seconds2).kbps
  {
    var r1, r2 := RawTarget(size, seconds1).kbps, RawTarget(size, seconds2).kbps;
    assert r1 * seconds1 == r2 * seconds2;
    assert r2 > 0.0;
    assert r1 * seconds1 >= r2 * seconds1;
  }
}

=== FILE: dmt.dfy ===
/** The `DMT.go` variant: ffprobe result interpretation, output naming,
    bitrate target and the two-pass x264 / VP9 encode.
    The program's global flags are fields of one state record, `Ui`; the
    external ffmpeg passes and file removals are given as outcomes, and each
    run reports the effects it attempted in order. */
module Dmt {
  import opened Wrappers
  import opened Strings
  import opened Bitrate
  import opened PassLogs

  // ---------------------------------------------------------------------
  // Probe-result interpretation (getVideoInfo after JSON decoding)
  // ---------------------------------------------------------------------

  /** One entry of ffprobe's `streams` array, as far as the tool decodes it. */
  datatype Stream = Stream(codecType: string, width: int, height: int, duration: string)

  /** ffprobe's report: the streams in order and the container-level duration. */
  datatype VideoInfo = VideoInfo(streams: seq<Stream>, formatDuration: string)

  /** How probing went: the probe tool failed, its output was not valid
      JSON, or it decoded into a report. */
  datatype ProbeOutcome = ProbeFailed | DecodeFailed | Decoded(info: VideoInfo)

  /** The four values `getVideoInfo` returns: codec type, width, height, duration. */
  datatype VideoSummary = VideoSummary(codecType: string, width: int, height: int, duration: string)

  const NoVideo: VideoSummary := VideoSummary("", 0, 0, "")

  predicate IsVideo(s: Stream) {
    s.codecType == "video"
  }

  /** `k` is the position of the first video stream of `ss`. */
  predicate IsFirstVideo(ss: seq<Stream>, k: int) {
    && 0 <= k < |ss|
    && IsVideo(ss[k])
    && forall j :: 0 <= j < k ==> !IsVideo(ss[j])
  }

  /** Position of the first video stream, or `|ss|` when there is none. */
  function FirstVideo(ss: seq<Stream>): (k: nat)
    ensures k <= |ss|
    ensures k < |ss| ==> IsFirstVideo(ss, k)
    ensures k == |ss| ==> forall j :: 0 <= j < |ss| ==> !IsVideo(ss[j])
  {
    if |ss| == 0 then 0
    else if IsVideo(ss[0]) then 0
    else 1 + FirstVideo(ss[1..])
  }

  /** `getVideoInfo` from the probe outcome on: returns the summary and the
      new value of the `invalidFile` flag. */
  function GetVideoInfo(probe: ProbeOutcome, invalidFile: bool): (r: (VideoSummary, bool))
    // a failed probe or undecodable report: empty summary, file marked invalid
    ensures !probe.Decoded? ==> r == (NoVideo, true)
    // a decoded report never touches the flag
    ensures probe.Decoded? ==> r.1 == invalidFile
    // no video stream: the empty summary
    ensures probe.Decoded? && (forall j :: 0 <= j < |probe.info.streams| ==> !IsVideo(probe.info.streams[j]))
      ==> r.0 == NoVideo
    // otherwise the first video stream in list order, with the container
    // duration standing in for an empty stream duration
    ensures probe.Decoded? ==>
      forall k :: IsFirstVideo(probe.info.streams, k) ==>
        var s := probe.info.streams[k];
        && r.0.codecType == "video"
        && r.0.width == s.width
        && r.0.height == s.height
        && (s.duration != "" ==> r.0.duration == s.duration)
        && (s.duration == "" ==> r.0.duration == probe.info.formatDuration)
  {
    match probe
    case ProbeFailed => (NoVideo, true)
    case DecodeFailed => (NoVideo, true)
    case Decoded(info) =>
      var k := FirstVideo(info.streams);
      if k == |info.streams| then (NoVideo, invalidFile)
      else
        var s := info.streams[k];
        var d := if s.duration == "" then info.formatDuration else s.duration;
        (VideoSummary(s.codecType, s.width, s.height, d), invalidFile)
  }

  // ---------------------------------------------------------------------
  // Output naming (x264Encode / vp9Encode)
  // ---------------------------------------------------------------------

  /** The file name without directories and without anything from its first
      "." on: the last "/"-piece of the path, cut at its first ".". */
  function OutputStem(filePath: string): (stem: string)
    ensures '/' !in stem && '.' !in stem
  {
    var levels := Split(filePath, '/');
    var fullFileName := Split(Last(levels), '.');
    SplitPiecesOmitSeparator(filePath, '/');
    SplitPiecesOmitSeparator(Last(levels), '.');
    fullFileName[0]
  }

  /** Output file of both passes, in the working directory: compression 0
      selects x264 in MP4, anything else VP9 in WebM. */
  function OutputName(filePath: string, compression: int): string {
    "./" + OutputStem(filePath) + (if compression == 0 then "_x264.mp4" else "_vp9.webm")
  }

  /** The stem is the part of the path that starts after its last "/" and
      stops at the first "." after that (or at the end). */
  lemma OutputStemPosition(filePath: string) returns (a: nat, b: nat)
    ensures a <= b <= |filePath|
    ensures filePath[a..b] == OutputStem(filePath)
    ensures a == 0 || filePath[a - 1] == '/'
    ensures '/' !in filePath[a..]
    ensures b == |filePath| || filePath[b] == '.'
  {
    a := LastPieceIsSuffix(filePath, '/');
    var last := filePath[a..];
    var i := FirstIndex(last, '.');
    b := a + i;
    assert OutputStem(filePath) == last[..i];
    assert filePath[a..b] == last[..i];
    if b < |filePath| {
      assert filePath[b] == last[i];
    }
  }

  /** The named output is the stem with the codec's suffix, in "./". */
  lemma OutputNameShape(filePath: string, compression: int)
    ensures var n := OutputName(filePath, compression);
      && n[..2] == "./"
      && n[2..|n| - 9] == OutputStem(filePath)
      && '/' !in n[2..]
      && (compression == 0 ==> n[|n| - 9..] == "_x264.mp4")
      && (compression != 0 ==> n[|n| - 9..] == "_vp9.webm")
  {
    var sfx := if compression == 0 then "_x264.mp4" else "_vp9.webm";
    assert OutputName(filePath, compression) == "./" + OutputStem(filePath) + sfx;
    PrefixedSuffixed(OutputStem(filePath), sfx);
  }
  /** Only `/` separates: a path without one, even one whose directories are
      written with `\`, is kept whole up to its first "." in the stem. */
  lemma OnlySlashSeparates(filePath: string)
    requires '/' !in filePath
    ensures OutputStem(filePath) == filePath[..FirstIndex(filePath, '.')]
  {
    var a, b := OutputStemPosition(filePath);
    var i := FirstIndex(filePath, '.');
    assert filePath[a..b] == filePath[..i];
  }




  lemma PrefixedSuffixed(stem: string, sfx: string)
    requires '/' !in stem && '/' !in sfx && |sfx| == 9
    ensures var n := "./" + stem + sfx;
      n[..2] == "./" && n[2..|n| - 9] == stem && '/' !in n[2..] && n[|n| - 9..] == sfx
  {
    var n := "./" + stem + sfx;
    assert n[2..] == stem + sfx;
    assert n[2..|n| - 9] == stem;
    assert n[|n| - 9..] == sfx;
  }

  // ---------------------------------------------------------------------
  // Bitrate target (calculateTarget)
  // ---------------------------------------------------------------------

  /** Headroom, in kbps, taken off the computed rate. */
  const Leeway: real := 150.0

  /** `calculateTarget(targetSize, duration)`: the size-filling rate minus a
      fixed 150 kbps. */
  function CalculateTarget(sizeMB: real, seconds: real): (r: Rate)
    ensures r.Finite? <==> seconds != 0.0
    ensures r.Finite? ==> (r.kbps + Leeway) * seconds == sizeMB * KilobitsPerMegabyte
  {
    match RawTarget(sizeMB, seconds)
    case Finite(k) => Finite(k - Leeway)
    case NonFinite => NonFinite
  }

  /** The target is exactly 150 kbps below the size-filling rate. */
  lemma TargetIsRawMinusLeeway(sizeMB: real, seconds: real)
    requires seconds != 0.0
    ensures CalculateTarget(sizeMB, seconds).kbps == RawTarget(sizeMB, seconds).kbps - 150.0
  {
  }

  /** For a positive duration the target grows with the size. */
  lemma TargetMonotoneInSize(size1: real, size2: real, seconds: real)
    requires seconds > 0.0 && size1 <= size2
    ensures CalculateTarget(size1, seconds).kbps <= CalculateTarget(size2, seconds).kbps
  {
    RawTargetMonotoneInSize(size1, size2, seconds);
  }

  /** 10 MB over 60 seconds: 4000/3 kbps less 150. */
  lemma TargetExample()
    ensures CalculateTarget(10.0, 60.0) == Finite(3550.0 / 3.0)
  {
  }

  // ---------------------------------------------------------------------
  // Two-pass encode (x264Encode / vp9Encode) and beginEncode
  // ---------------------------------------------------------------------

  /** The program's global state that the encode path reads and writes. */
  datatype Ui = Ui(statusMessage: string, encodingNow: bool, invalidFile: bool, encodeError: bool)

  /** What a run attempts, in order: an ffmpeg pass writing `output` at the
      given bitrate, or a step of the statistics-file clean-up. */
  datatype Effect =
    | RunPass(pass: nat, output: string, bitrate: Rate)
    | Tidy(step: Removal)

  /** Outcomes of the external actions of one encode. */
  datatype Outcomes = Outcomes(pass1Ok: bool, pass2Ok: bool, removals: RemovalOutcomes)

  datatype Run = Run(ui: Ui, effects: seq<Effect>)

  predicate RanPass(effects: seq<Effect>, n: nat) {
    exists i :: 0 <= i < |effects| && effects[i].RunPass? && effects[i].pass == n
  }

  predicate AttemptedRemoval(effects: seq<Effect>, name: string) {
    Tidy(Remove(name)) in effects
  }

  predicate AttemptedAnyRemoval(effects: seq<Effect>) {
    exists i :: 0 <= i < |effects| && effects[i].Tidy?
  }

  /** `x264Encode` (compression 0) and `vp9Encode` (any other value): both
      passes write the same output; pass 2 runs only after pass 1 succeeded
      and the statistics files are removed only after pass 2 succeeded. */
  function TwoPassEncode(ui: Ui, filePath: string, compression: int, bitrate: Rate, o: Outcomes): (r: Run)
    // the error flag is raised exactly when a pass failed; nothing else changes
    ensures r.ui == ui.(encodeError := ui.encodeError || !o.pass1Ok || !o.pass2Ok)
    // pass 1 always runs first, on the named output at the given bitrate
    ensures |r.effects| >= 1 && r.effects[0] == RunPass(1, OutputName(filePath, compression), bitrate)
    // pass 2 runs if and only if pass 1 succeeded, right after it; a
    // failed pass 1 ends the encode
    ensures RanPass(r.effects, 2) <==> o.pass1Ok
    ensures !o.pass1Ok ==> |r.effects| == 1
    ensures o.pass1Ok ==> |r.effects| >= 2 && r.effects[1] == RunPass(2, OutputName(filePath, compression), bitrate)
    // every pass writes the named output at the given bitrate
    ensures forall i :: 0 <= i < |r.effects| && r.effects[i].RunPass? ==>
      r.effects[i].output == OutputName(filePath, compression) && r.effects[i].bitrate == bitrate
    // the passes come first and the clean-up after them
    ensures forall i :: 0 <= i < |r.effects| ==> (r.effects[i].Tidy? <==> i >= 2)
    // a removal is attempted if and only if both passes succeeded
    ensures AttemptedAnyRemoval(r.effects) <==> o.pass1Ok && o.pass2Ok
    // and then both files are removed, whatever the first removal did
    ensures o.pass1Ok && o.pass2Ok ==>
      AttemptedRemoval(r.effects, PassLog) && AttemptedRemoval(r.effects, PassMbtree)
    // the clean-up is exactly the removal of the two statistics files
    ensures o.pass1Ok && o.pass2Ok ==>
      var steps := RemoveLogs(o.removals);
      |r.effects| == 2 + |steps| && forall i :: 0 <= i < |steps| ==> r.effects[2 + i] == Tidy(steps[i])
  {
    var output := OutputName(filePath, compression);
    var pass1 := RunPass(1, output, bitrate);
    if !o.pass1Ok then
      Run(ui.(encodeError := true), [pass1])
    else
      var rest := SecondPassThenCleanup(ui, output, bitrate, o);
      PrependFirstPass(pass1, rest.effects);
      ShiftCleanup(pass1, rest.effects, o);
      Run(rest.ui, [pass1] + rest.effects)
  }

  /** The clean-up after pass 2 keeps its content and order when pass 1 is
      put before it. */
  lemma ShiftCleanup(pass1: Effect, rest: seq<Effect>, o: Outcomes)
    requires o.pass2Ok ==>
      var steps := RemoveLogs(o.removals);
      |rest| == 1 + |steps| && forall i :: 0 <= i < |steps| ==> rest[1 + i] == Tidy(steps[i])
    ensures o.pass2Ok ==>
      var all, steps := [pass1] + rest, RemoveLogs(o.removals);
      |all| == 2 + |steps| && forall i :: 0 <= i < |steps| ==> all[2 + i] == Tidy(steps[i])
  {
    if o.pass2Ok {
      var all, steps := [pass1] + rest, RemoveLogs(o.removals);
      forall i | 0 <= i < |steps|
        ensures all[2 + i] == Tidy(steps[i])
      {
        assert all[2 + i] == rest[1 + i];
      }
    }
  }

  /** Pass 2 and, after a success, the clean-up. */
  function SecondPassThenCleanup(ui: Ui, output: string, bitrate: Rate, o: Outcomes): (r: Run)
    ensures r.ui == ui.(encodeError := ui.encodeError || !o.pass2Ok)
    ensures |r.effects| >= 1 && r.effects[0] == RunPass(2, output, bitrate)
    ensures forall i :: 0 <= i < |r.effects| ==> (r.effects[i].Tidy? <==> i >= 1)
    ensures AttemptedAnyRemoval(r.effects) <==> o.pass2Ok
    ensures o.pass2Ok ==> AttemptedRemoval(r.effects, PassLog) && AttemptedRemoval(r.effects, PassMbtree)
    // a failed pass 2 ends the encode; after a success the clean-up is
    // exactly the removal of the two statistics files
    ensures !o.pass2Ok ==> |r.effects| == 1
    ensures o.pass2Ok ==>
      var steps := RemoveLogs(o.removals);
      |r.effects| == 1 + |steps| && forall i :: 0 <= i < |steps| ==> r.effects[1 + i] == Tidy(steps[i])
  {
    var pass2 := RunPass(2, output, bitrate);
    if !o.pass2Ok then
      Run(ui.(encodeError := true), [pass2])
    else
      var cleanup := Cleanup(o.removals);
      PrependPass(pass2, cleanup);
      Run(ui, [pass2] + cleanup)
  }

  /** The clean-up steps as effects, one for one and in order. */
  function Cleanup(o: RemovalOutcomes): (r: seq<Effect>)
    ensures |r| == |RemoveLogs(o)|
    ensures forall i :: 0 <= i < |r| ==> r[i] == Tidy(RemoveLogs(o)[i])
    ensures Tidy(Remove(PassLog)) in r && Tidy(Remove(PassMbtree)) in r
  {
    var steps := RemoveLogs(o);
    var r := Tagged(steps, step => Tidy(step));
    assert r[0] == Tidy(Remove(PassLog));
    var k :| 0 <= k < |steps| && steps[k] == Remove(PassMbtree);
    assert r[k] == Tidy(Remove(PassMbtree));
    r
  }

  /** A pass followed by clean-up steps: the pass first, then every step in
      order, all of them clean-up. */
  lemma PrependPass(pass: Effect, cleanup: seq<Effect>)
    requires pass.RunPass? && forall i :: 0 <= i < |cleanup| ==> cleanup[i].Tidy?
    ensures var all := [pass] + cleanup;
      && all[0] == pass
      && (forall i :: 0 <= i < |all| ==> (all[i].Tidy? <==> i >= 1))
      && (forall i :: 0 <= i < |cleanup| ==> all[1 + i] == cleanup[i])
      && (forall name :: AttemptedRemoval(all, name) <==> AttemptedRemoval(cleanup, name))
      && (AttemptedAnyRemoval(all) <==> cleanup != [])
  {
    var all := [pass] + cleanup;
    forall i | 1 <= i < |all|
      ensures all[i] == cleanup[i - 1]
    {
    }
    if cleanup != [] {
      assert all[1].Tidy?;
    }
  }

  /** What putting pass 1 before pass 2 and its clean-up does to the facts
      the encode's contract is stated in. */
  lemma PrependFirstPass(pass1: Effect, rest: seq<Effect>)
    requires pass1.RunPass? && pass1.pass == 1
    requires |rest| >= 1 && rest[0].RunPass? && rest[0].pass == 2
    requires forall i :: 0 <= i < |rest| ==> (rest[i].Tidy? <==> i >= 1)
    ensures var all := [pass1] + rest;
      && all[0] == pass1 && all[1] == rest[0]
      && RanPass(all, 2)
      && (forall i :: 0 <= i < |all| ==> (all[i].Tidy? <==> i >= 2))
      && (forall i :: 0 <= i < |all| && all[i].RunPass? ==> all[i] == pass1 || all[i] == rest[0])
      && (AttemptedAnyRemoval(all) <==> AttemptedAnyRemoval(rest))
      && (forall name :: AttemptedRemoval(all, name) <==> AttemptedRemoval(rest, name))
  {
    var all := [pass1] + rest;
    forall i | 1 <= i < |all|
      ensures all[i] == rest[i - 1]
    {
    }
    if AttemptedAnyRemoval(rest) {
      var i :| 0 <= i < |rest| && rest[i].Tidy?;
      assert all[i + 1] == rest[i];
    }
  }

  /** The outcome of a removal changes only what is logged. */
  lemma RemovalOutcomeOnlyLogged(ui: Ui, filePath: string, compression: int, bitrate: Rate, o: Outcomes, o': Outcomes)
    requires o.pass1Ok == o'.pass1Ok && o.pass2Ok == o'.pass2Ok
    ensures TwoPassEncode(ui, filePath, compression, bitrate, o).ui
         == TwoPassEncode(ui, filePath, compression, bitrate, o').ui
  {
  }

  /** `beginEncode`: parse the target size (a parse error leaves 0), probe
      the file, abort when it is invalid or its duration does not parse,
      otherwise compute the target and run the chosen encoder; the status
      then reads "Done!" whether or not the encode succeeded.
      `targetSize` is what `strconv.ParseFloat` made of the size field and
      `parseFloat` stands for `strconv.ParseFloat` on the probed duration. */
  function BeginEncode(ui: Ui, filePath: string, compression: int, targetSize: Option<real>,
                       probe: ProbeOutcome, parseFloat: string -> Option<real>, o: Outcomes): (r: Run)
    // a failed probe aborts before any pass, with the file marked invalid
    ensures !probe.Decoded? ==> r.effects == [] && r.ui.invalidFile && !r.ui.encodingNow
    // the encoder runs exactly when the report decoded, the file was not
    // already marked invalid and the probed duration parses ...
    ensures r.effects != [] <==>
      probe.Decoded? && !ui.invalidFile && parseFloat(GetVideoInfo(probe, ui.invalidFile).0.duration).Some?
    // ... and then it is the chosen encoder at the target for the parsed
    // size (0 when the size field does not parse) and the parsed duration
    ensures r.effects != [] ==>
      var seconds := parseFloat(GetVideoInfo(probe, ui.invalidFile).0.duration).value;
      var run := TwoPassEncode(ui, filePath, compression, CalculateTarget(targetSize.GetOr(0.0), seconds), o);
      r.effects == run.effects && r.ui == run.ui.(statusMessage := "Done!")
    // an abort runs nothing, clears the busy flag and keeps the status text
    ensures r.effects == [] ==> !r.ui.encodingNow && r.ui.statusMessage == ui.statusMessage
    // ... and changes nothing else but the invalid-file flag `getVideoInfo` reports
    ensures r.effects == [] ==>
      r.ui == ui.(invalidFile := GetVideoInfo(probe, ui.invalidFile).1, encodingNow := false)
    // an encode that started always ends with the status "Done!"
    ensures r.effects != [] ==> r.ui.statusMessage == "Done!" && r.ui.encodingNow == ui.encodingNow
    ensures r.effects != [] ==> r.effects[0].RunPass? && r.effects[0].output == OutputName(filePath, compression)
    // the encode reports an error only through `encodeError`
    ensures r.ui.encodeError ==> ui.encodeError || r.effects != []
  {
    var size := targetSize.GetOr(0.0);
    var (summary, invalid) := GetVideoInfo(probe, ui.invalidFile);
    var ui1 := ui.(invalidFile := invalid);
    if invalid then
      Run(ui1.(encodingNow := false), [])
    else
      match parseFloat(summary.duration)
      case None => Run(ui1.(encodingNow := false), [])
      case Some(seconds) =>
        var run := TwoPassEncode(ui1, filePath, compression, CalculateTarget(size, seconds), o);
        Run(run.ui.(statusMessage := "Done!"), run.effects)
  }

  /** A file without a video stream is not marked invalid, but its empty
      duration does not parse, so the encode is abandoned before any pass. */
  lemma NoVideoStreamAborts(ui: Ui, filePath: string, compression: int, targetSize: Option<real>,
                            info: VideoInfo, parseFloat: string -> Option<real>, o: Outcomes)
    requires !ui.invalidFile
    requires forall j :: 0 <= j < |info.streams| ==> !IsVideo(info.streams[j])
    requires parseFloat("") == None
    ensures var r := BeginEncode(ui, filePath, compression, targetSize, Decoded(info), parseFloat, o);
      r.effects == [] && !r.ui.invalidFile && !r.ui.encodingNow
  {
  }
}

=== FILE: encoding.dfy ===
/** The `encoding.go` variant: validation of ffprobe's report against a
    requested media kind, output naming beside the input, the bitrate target
    with an optional safety factor, the `-fs` size cap, and the two-pass video,
    single-pass audio and GIF conversions. The program's global flags are the
    fields of `Globals`; ffmpeg runs and file removals are given as outcomes,
    and each run reports the effects it attempted in order. */
module Encoding {
  import opened Wrappers
  import opened FilePath
  import opened Bitrate
  import opened PassLogs

  // ---------------------------------------------------------------------
  // Probe-result validation (getMediaInfo after JSON decoding)
  // ---------------------------------------------------------------------

  /** One entry of ffprobe's `streams` array, as far as `MediaInfo` decodes it. */
  datatype Stream = Stream(codecType: string, width: int, height: int)

  /** `MediaInfo`: the streams in order and the container-level duration. */
  datatype MediaInfo = MediaInfo(streams: seq<Stream>, duration: string)

  /** The zero value of `MediaInfo`. */
  const EmptyInfo: MediaInfo := MediaInfo([], "")

  /** The duration written over an unsupported report. */
  const InvalidDuration: string := "invalid"

  /** How probing went: the probe tool failed, or it produced a report that
      was decoded into `info`. When decoding stops with an error (`jsonOk`
      false) `info` holds whatever had been decoded by then, and
      `getMediaInfo` carries on with it. */
  datatype ProbeOutcome = ProbeFailed | Probed(info: MediaInfo, jsonOk: bool)

  /** The program's global flags that these operations read and write. */
  datatype Globals = Globals(
    invalidFile: bool,
    encodeError: bool,
    encodingNow: bool,
    encodingFirstPass: bool,
    encodingSecondPass: bool)

  /** The check of `getMediaInfo`'s loop: some stream has the requested kind
      while the container reports a non-empty duration. */
  function HasUsableStream(ss: seq<Stream>, duration: string, mediaType: string): (b: bool)
    ensures b <==> duration != "" && exists i :: 0 <= i < |ss| && ss[i].codecType == mediaType
  {
    if |ss| == 0 then false
    else (ss[0].codecType == mediaType && duration != "") || HasUsableStream(ss[1..], duration, mediaType)
  }

  /** The report itself when it is usable for `mediaType`, otherwise the
      report with its duration replaced by the sentinel. */
  function Validate(info: MediaInfo, mediaType: string): (r: MediaInfo)
    ensures r.streams == info.streams
    ensures HasUsableStream(info.streams, info.duration, mediaType) ==> r == info
    ensures !HasUsableStream(info.streams, info.duration, mediaType) ==> r == info.(duration := InvalidDuration)
  {
    if HasUsableStream(info.streams, info.duration, mediaType) then info
    else info.(duration := InvalidDuration)
  }

  /** `getMediaInfo(fileName, mediaType)` from the probe outcome on:
      the returned report and the new global flags. */
  function GetMediaInfo(g: Globals, probe: ProbeOutcome, mediaType: string): (r: (MediaInfo, Globals))
    // only `invalidFile` changes, and it is raised on a probe or decoding failure
    ensures r.1 == g.(invalidFile := g.invalidFile || probe.ProbeFailed? || !probe.jsonOk)
    // a failed probe returns the zero value, without the sentinel
    ensures probe.ProbeFailed? ==> r.0 == EmptyInfo && r.0.duration != InvalidDuration
    // otherwise the (possibly partial) report comes back with its streams ...
    ensures probe.Probed? ==> r.0.streams == probe.info.streams
    // ... unchanged when a stream of the kind exists and the duration is set
    ensures probe.Probed? && probe.info.duration != ""
         && (exists i :: 0 <= i < |probe.info.streams| && probe.info.streams[i].codecType == mediaType)
         ==> r.0 == probe.info
    // ... and carrying the sentinel duration otherwise
    ensures probe.Probed? && (probe.info.duration == ""
         || forall i :: 0 <= i < |probe.info.streams| ==> probe.info.streams[i].codecType != mediaType)
         ==> r.0.duration == InvalidDuration
  {
    match probe
    case ProbeFailed => (EmptyInfo, g.(invalidFile := true))
    case Probed(info, jsonOk) =>
      var g' := if jsonOk then g else g.(invalidFile := true);
      (Validate(info, mediaType), g')
  }

  /** Validating an already validated report changes nothing. */
  lemma ValidateIdempotent(info: MediaInfo, mediaType: string)
    ensures Validate(Validate(info, mediaType), mediaType) == Validate(info, mediaType)
  {
  }

  // ---------------------------------------------------------------------
  // Output naming (videoEncode / audioEncode / gifConvert)
  // ---------------------------------------------------------------------

  /** The output of a pass or conversion written beside the input: the
      input's directory, a `\`, the base name without its extension, and
      `suffix`. */
  function Beside(filePath: string, suffix: string): string {
    Dir(filePath) + [Separator] + Stem(filePath) + suffix
  }

  /** `out` is `prefix`, then `mid`, then `suffix`, each readable back by position. */
  predicate Framed(out: string, prefix: string, mid: string, suffix: string) {
    && |out| == |prefix| + |mid| + |suffix|
    && out[..|prefix|] == prefix
    && out[|prefix|..|out| - |suffix|] == mid
    && out[|out| - |suffix|..] == suffix
  }

  /** The three parts of `prefix + mid + suffix` can be read back by position. */
  lemma ThreeParts(prefix: string, mid: string, suffix: string)
    ensures Framed(prefix + mid + suffix, prefix, mid, suffix)
  {
    var r := prefix + mid + suffix;
    assert r[..|prefix|] == prefix;
    assert r[|prefix|..|r| - |suffix|] == mid;
  }

  /** The suffix of pass 1's output: codec type 0 is x264 in MP4, any other VP9 in WebM. */
  function FirstPassSuffix(codecType: int): string {
    if codecType == 0 then "_x264.mp4" else "_vp9.webm"
  }

  /** The suffix of pass 2's output: codec type 0 is H.264 in MP4, any other VP9 in WebM. */
  function SecondPassSuffix(codecType: int): string {
    if codecType == 0 then "_h264.mp4" else "_vp9.webm"
  }

  /** The suffix of the audio output: codec type 0 is MP3, any other Opus. */
  function AudioSuffix(codecType: int): string {
    if codecType == 0 then "_mp3.mp3" else "_opus.opus"
  }

  const GifSuffix: string := "_gif.gif"

  /** First-pass output (discarded by the null muxer): in the working
      directory, named after the full base name, extension included. */
  function FirstPassOutput(filePath: string, codecType: int): string {
    "./" + Base(filePath) + FirstPassSuffix(codecType)
  }

  /** Second-pass output: beside the input, named after its stem. */
  function SecondPassOutput(filePath: string, codecType: int): string {
    Beside(filePath, SecondPassSuffix(codecType))
  }

  /** Audio output: beside the input, named after its stem. */
  function AudioOutput(filePath: string, codecType: int): string {
    Beside(filePath, AudioSuffix(codecType))
  }

  /** GIF output: beside the input, named after its stem. */
  function GifOutput(filePath: string): string {
    Beside(filePath, GifSuffix)
  }

  /** `out` is the input's directory and a `\`, then the input's stem, then
      `suffix`; the stem followed by the input's extension is its base name,
      and for a path with an element the stem holds no separator. */
  predicate NamedAfterStem(out: string, filePath: string, suffix: string) {
    && Framed(out, Dir(filePath) + [Separator], Stem(filePath), suffix)
    && Stem(filePath) + Ext(Base(filePath)) == Base(filePath)
    && (HasElement(filePath) ==> NoSeparator(Stem(filePath)))
  }

  /** Any output beside the input is named after the input's stem. */
  lemma BesideNamed(filePath: string, suffix: string)
    ensures NamedAfterStem(Beside(filePath, suffix), filePath, suffix)
  {
    if HasElement(filePath) {
      StemHasNoSeparator(filePath);
    }
    StemPlusExt(filePath);
    ThreeParts(Dir(filePath) + [Separator], Stem(filePath), suffix);
  }

  /** Pass 1 writes into the working directory, whatever directory the input
      is in: `./`, then the input's stem with its extension kept, then
      `_x264.mp4` or `_vp9.webm`, with no separator after the leading `./`
      when the path has an element. */
  lemma FirstPassOutputShape(filePath: string, codecType: int)
    ensures Framed(FirstPassOutput(filePath, codecType), "./",
                   Stem(filePath) + Ext(Base(filePath)), FirstPassSuffix(codecType))
    ensures HasElement(filePath) ==> NoSeparator(FirstPassOutput(filePath, codecType)[2..])
    ensures codecType == 0 <==> FirstPassSuffix(codecType) == "_x264.mp4"
  {
    var base, suffix := Base(filePath), FirstPassSuffix(codecType);
    StemPlusExt(filePath);
    ThreeParts("./", base, suffix);
    if HasElement(filePath) {
      var _ := BaseIsLastElement(filePath);
      SuffixesHaveNoSeparator(codecType);
      NoSeparatorAfterPrefix("./", base, suffix);
    }
  }

  /** No output suffix holds a separator. */
  lemma SuffixesHaveNoSeparator(codecType: int)
    ensures NoSeparator(FirstPassSuffix(codecType)) && NoSeparator(SecondPassSuffix(codecType))
    ensures NoSeparator(AudioSuffix(codecType)) && NoSeparator(GifSuffix)
  {
  }

  /** Text with no separator, put after a prefix, leaves no separator after
      that prefix. */
  lemma NoSeparatorAfterPrefix(prefix: string, mid: string, suffix: string)
    requires NoSeparator(mid) && NoSeparator(suffix)
    ensures NoSeparator((prefix + mid + suffix)[|prefix|..])
  {
    var tail := (prefix + mid + suffix)[|prefix|..];
    assert tail == mid + suffix;
  }

  /** Pass 2 writes beside the input, after its stem, with `_h264.mp4` or `_vp9.webm`. */
  lemma SecondPassOutputShape(filePath: string, codecType: int)
    ensures NamedAfterStem(SecondPassOutput(filePath, codecType), filePath, SecondPassSuffix(codecType))
    ensures codecType == 0 <==> SecondPassSuffix(codecType) == "_h264.mp4"
  {
    BesideNamed(filePath, SecondPassSuffix(codecType));
  }

  /** Audio is written beside the input, after its stem, with `_mp3.mp3` or `_opus.opus`. */
  lemma AudioOutputShape(filePath: string, codecType: int)
    ensures NamedAfterStem(AudioOutput(filePath, codecType), filePath, AudioSuffix(codecType))
    ensures codecType == 0 <==> AudioSuffix(codecType) == "_mp3.mp3"
  {
    BesideNamed(filePath, AudioSuffix(codecType));
  }

  /** A GIF is written beside the input, after its stem, with `_gif.gif`. */
  lemma GifOutputShape(filePath: string)
    ensures NamedAfterStem(GifOutput(filePath), filePath, GifSuffix)
  {
    BesideNamed(filePath, GifSuffix);
  }

  // ---------------------------------------------------------------------
  // Bitrate target (calculateTarget) and the -fs cap
  // ---------------------------------------------------------------------

  /** The factor applied in conservative mode. */
  const SafetyFactor: real := 0.98

  /** `calculateTarget(targetSize, duration, conservative)`: the size-filling
      rate, scaled by 0.98 in conservative mode. */
  function CalculateTarget(sizeMB: real, seconds: real, conservative: bool): (r: Rate)
    ensures r.Finite? <==> seconds != 0.0
    ensures r.Finite? && !conservative ==> r.kbps * seconds == sizeMB * KilobitsPerMegabyte
    ensures r.Finite? && conservative ==> r.kbps * seconds == SafetyFactor * sizeMB * KilobitsPerMegabyte
  {
    match RawTarget(sizeMB, seconds)
    case Finite(k) => if conservative then Finite(k * SafetyFactor) else Finite(k)
    case NonFinite => NonFinite
  }

  /** Conservative mode is 0.98 times the plain target, hence strictly below
      it whenever the plain target is positive. */
  lemma ConservativeIsStrictlySmaller(sizeMB: real, seconds: real)
    requires seconds != 0.0
    ensures CalculateTarget(sizeMB, seconds, true).kbps == SafetyFactor * CalculateTarget(sizeMB, seconds, false).kbps
    ensures CalculateTarget(sizeMB, seconds, false).kbps > 0.0 ==>
      CalculateTarget(sizeMB, seconds, true).kbps < CalculateTarget(sizeMB, seconds, false).kbps
  {
  }

  /** For a positive duration the target grows with the size, in both modes. */
  lemma TargetMonotoneInSize(size1: real, size2: real, seconds: real, conservative: bool)
    requires seconds > 0.0 && size1 <= size2
    ensures CalculateTarget(size1, seconds, conservative).kbps <= CalculateTarget(size2, seconds, conservative).kbps
  {
    RawTargetMonotoneInSize(size1, size2, seconds);
  }

  /** 10 MB over 60 seconds: 4000/3 kbps, or 3920/3 kbps in conservative mode. */
  lemma TargetExample()
    ensures CalculateTarget(10.0, 60.0, false) == Finite(4000.0 / 3.0)
    ensures CalculateTarget(10.0, 60.0, true) == Finite(3920.0 / 3.0)
  {
  }

  /** Go's conversion of a float to `int`: the fraction is dropped, rounding
      toward zero. */
  function Truncate(x: real): (n: int)
    ensures x >= 0.0 ==> 0 <= n && n as real <= x < n as real + 1.0
    ensures x < 0.0 ==> n <= 0 && n as real - 1.0 < x <= n as real
  {
    if x >= 0.0 then x.Floor else -((-x).Floor)
  }

  /** Bytes in one mebibyte, the unit of the `-fs` cap. */
  const BytesPerMebibyte: real := 1048576.0

  /** The share of the target size allowed for `-fs`. */
  const FsShare: real := 0.99

  /** The `-fs` byte cap for a target of `sizeMB`: 99% of that many
      mebibytes, rounded toward zero. For a positive target it is a whole
      number of bytes within one byte of 99% of the target, and so below
      the target itself. */
  function FsLimit(sizeMB: real): (n: int)
    ensures sizeMB > 0.0 ==> 0 <= n
    ensures sizeMB > 0.0 ==> n as real <= sizeMB * BytesPerMebibyte * FsShare < n as real + 1.0
    ensures sizeMB > 0.0 ==> n as real < sizeMB * BytesPerMebibyte
  {
    Truncate(sizeMB * BytesPerMebibyte * FsShare)
  }

  // ---------------------------------------------------------------------
  // Encodes (videoEncode / audioEncode / gifConvert)
  // ---------------------------------------------------------------------

  datatype Stage = FirstPass | SecondPass | SinglePass

  /** What a run attempts, in order: an ffmpeg run of `stage` writing
      `output`, with the `-fs` cap if one was set and the global flags as
      they stand while it runs, or a step of the statistics-file clean-up. */
  datatype Effect =
    | RunPass(stage: Stage, output: string, fsLimit: Option<int>, during: Globals)
    | Tidy(step: Removal)

  /** Outcomes of the external actions of one two-pass encode. */
  datatype Outcomes = Outcomes(pass1Ok: bool, pass2Ok: bool, removals: RemovalOutcomes)

  datatype Run = Run(globals: Globals, effects: seq<Effect>)

  predicate RanStage(effects: seq<Effect>, stage: Stage) {
    exists i :: 0 <= i < |effects| && effects[i].RunPass? && effects[i].stage == stage
  }

  predicate AttemptedRemoval(effects: seq<Effect>, name: string) {
    Tidy(Remove(name)) in effects
  }

  predicate AttemptedAnyRemoval(effects: seq<Effect>) {
    exists i :: 0 <= i < |effects| && effects[i].Tidy?
  }

  /** Pass 2 is abandoned when the `-fs` option is on and the size field
      does not parse. */
  predicate FsAborts(fsArgument: bool, targetSize: Option<real>) {
    fsArgument && targetSize.None?
  }

  /** The second pass of `videoEncode` and the clean-up after it, from the
      point where `encodingSecondPass` is raised. */
  function SecondPassRun(g: Globals, output: string, fs: Option<int>, o: Outcomes): (r: Run)
    // the pass runs first, with `encodingSecondPass` up
    ensures |r.effects| >= 1
    ensures r.effects[0] == RunPass(SecondPass, output, fs, g.(encodingSecondPass := true))
    ensures forall i :: 1 <= i < |r.effects| ==> r.effects[i].Tidy?
    // the statistics files are removed if and only if the pass succeeded, and then both
    ensures AttemptedAnyRemoval(r.effects) <==> o.pass2Ok
    ensures o.pass2Ok ==> AttemptedRemoval(r.effects, PassLog) && AttemptedRemoval(r.effects, PassMbtree)
    // a failure ends the run; after a success the clean-up is exactly the
    // removal of the two statistics files
    ensures !o.pass2Ok ==> |r.effects| == 1
    ensures o.pass2Ok ==>
      var steps := RemoveLogs(o.removals);
      |r.effects| == 1 + |steps| && forall i :: 0 <= i < |steps| ==> r.effects[1 + i] == Tidy(steps[i])
    // afterwards the flag is down, and a failure raises the error flag
    ensures r.globals == g.(encodingSecondPass := false, encodeError := g.encodeError || !o.pass2Ok)
  {
    var during := g.(encodingSecondPass := true);
    var pass2 := RunPass(SecondPass, output, fs, during);
    var after := during.(encodingSecondPass := false);
    if !o.pass2Ok then
      Run(after.(encodeError := true), [pass2])
    else
      var cleanup := Cleanup(o.removals);
      PrependPass(pass2, cleanup);
      Run(after, [pass2] + cleanup)
  }

  /** The clean-up steps as effects, one for one and in order. */
  function Cleanup(o: RemovalOutcomes): (r: seq<Effect>)
    ensures |r| == |RemoveLogs(o)|
    ensures forall i :: 0 <= i < |r| ==> r[i] == Tidy(RemoveLogs(o)[i])
    ensures Tidy(Remove(PassLog)) in r && Tidy(Remove(PassMbtree)) in r
  {
    var steps := RemoveLogs(o);
    var r := Tagged(steps, step => Tidy(step));
    assert r[0] == Tidy(Remove(PassLog));
    var k :| 0 <= k < |steps| && steps[k] == Remove(PassMbtree);
    assert r[k] == Tidy(Remove(PassMbtree));
    r
  }

  /** A run followed by clean-up steps: the run first, then every step in
      order, all of them clean-up. */
  lemma PrependPass(pass: Effect, cleanup: seq<Effect>)
    requires pass.RunPass? && forall i :: 0 <= i < |cleanup| ==> cleanup[i].Tidy?
    ensures var all := [pass] + cleanup;
      && all[0] == pass
      && (forall i :: 1 <= i < |all| ==> all[i].Tidy?)
      && (forall i :: 0 <= i < |cleanup| ==> all[1 + i] == cleanup[i])
      && (forall name :: AttemptedRemoval(all, name) <==> AttemptedRemoval(cleanup, name))
      && (AttemptedAnyRemoval(all) <==> cleanup != [])
  {
    var all := [pass] + cleanup;
    forall i | 1 <= i < |all|
      ensures all[i] == cleanup[i - 1]
    {
    }
    if cleanup != [] {
      assert all[1].Tidy?;
    }
  }

  /** `videoEncode(filePath, bitrate, codecType, duration)`, with the
      globals `fsArgument` and the parsed `strTargetSize` as parameters. */
  function VideoEncode(g: Globals, filePath: string, codecType: int, fsArgument: bool,
                       targetSize: Option<real>, o: Outcomes): (r: Run)
    // pass 1 always runs first, under the flags the caller left
    ensures |r.effects| >= 1 && r.effects[0] == RunPass(FirstPass, FirstPassOutput(filePath, codecType), None, g)
    // pass 2 runs if and only if pass 1 succeeded and the size cap could be
    // computed; otherwise the encode ends after pass 1
    ensures RanStage(r.effects, SecondPass) <==> o.pass1Ok && !FsAborts(fsArgument, targetSize)
    ensures !o.pass1Ok || FsAborts(fsArgument, targetSize) ==> |r.effects| == 1
    // ... on the output beside the input, with the cap when `-fs` is on, and
    // under the caller's flags with `encodingFirstPass` cleared and
    // `encodingSecondPass` raised
    ensures forall i :: 0 <= i < |r.effects| && r.effects[i].RunPass? && r.effects[i].stage == SecondPass ==>
      r.effects[i] == RunPass(SecondPass, SecondPassOutput(filePath, codecType),
                              if fsArgument then Some(FsLimit(targetSize.value)) else None,
                              g.(encodingFirstPass := false, encodingSecondPass := true))
    // the statistics files are removed if and only if both passes succeeded,
    // and then both of them
    ensures AttemptedAnyRemoval(r.effects) <==> o.pass1Ok && !FsAborts(fsArgument, targetSize) && o.pass2Ok
    ensures AttemptedAnyRemoval(r.effects) ==>
      AttemptedRemoval(r.effects, PassLog) && AttemptedRemoval(r.effects, PassMbtree)
    // and the clean-up is exactly that removal
    ensures AttemptedAnyRemoval(r.effects) ==>
      var steps := RemoveLogs(o.removals);
      |r.effects| == 2 + |steps| && forall i :: 0 <= i < |steps| ==> r.effects[2 + i] == Tidy(steps[i])
    // the runs come first (pass 1, then pass 2 if it ran) and the clean-up after them
    ensures forall i :: 0 <= i < |r.effects| ==> (r.effects[i].Tidy? <==> i >= 2)
    // the error flag is raised exactly by a failure, removals aside
    ensures r.globals.encodeError
        == (g.encodeError || !o.pass1Ok || FsAborts(fsArgument, targetSize) || !o.pass2Ok)
    // afterwards neither pass flag is up, unless pass 2 never ran and the
    // caller had left it up
    ensures !r.globals.encodingFirstPass
    ensures r.globals.encodingSecondPass == (g.encodingSecondPass && !RanStage(r.effects, SecondPass))
    // the other flags are not touched
    ensures r.globals.invalidFile == g.invalidFile && r.globals.encodingNow == g.encodingNow
  {
    var pass1 := RunPass(FirstPass, FirstPassOutput(filePath, codecType), None, g);
    if !o.pass1Ok then
      Run(g.(encodeError := true, encodingFirstPass := false), [pass1])
    else
      var g1 := g.(encodingFirstPass := false);
      if FsAborts(fsArgument, targetSize) then
        Run(g1.(encodeError := true), [pass1])
      else
        var fs := if fsArgument then Some(FsLimit(targetSize.value)) else None;
        var rest := SecondPassRun(g1, SecondPassOutput(filePath, codecType), fs, o);
        PrependFirstPass(pass1, rest.effects);
        ShiftCleanup(pass1, rest.effects, o);
        Run(rest.globals, [pass1] + rest.effects)
  }

  /** The clean-up after pass 2 keeps its content and order when pass 1 is
      put before it. */
  lemma ShiftCleanup(pass1: Effect, rest: seq<Effect>, o: Outcomes)
    requires o.pass2Ok ==>
      var steps := RemoveLogs(o.removals);
      |rest| == 1 + |steps| && forall i :: 0 <= i < |steps| ==> rest[1 + i] == Tidy(steps[i])
    ensures o.pass2Ok ==>
      var all, steps := [pass1] + rest, RemoveLogs(o.removals);
      |all| == 2 + |steps| && forall i :: 0 <= i < |steps| ==> all[2 + i] == Tidy(steps[i])
  {
    if o.pass2Ok {
      var all, steps := [pass1] + rest, RemoveLogs(o.removals);
      forall i | 0 <= i < |steps|
        ensures all[2 + i] == Tidy(steps[i])
      {
        assert all[2 + i] == rest[1 + i];
      }
    }
  }

  /** What prefixing a first-pass run to a second-pass run and its clean-up
      does to the facts the encode's contract is stated in. */
  lemma PrependFirstPass(pass1: Effect, rest: seq<Effect>)
    requires pass1.RunPass? && pass1.stage == FirstPass
    requires |rest| >= 1 && rest[0].RunPass? && rest[0].stage == SecondPass
    requires forall i :: 1 <= i < |rest| ==> rest[i].Tidy?
    ensures var all := [pass1] + rest;
      && RanStage(all, SecondPass)
      && (forall i :: 0 <= i < |all| && all[i].RunPass? && all[i].stage == SecondPass ==> all[i] == rest[0])
      && (AttemptedAnyRemoval(all) <==> AttemptedAnyRemoval(rest))
      && (forall name :: AttemptedRemoval(all, name) <==> AttemptedRemoval(rest, name))
      && (forall i :: 0 <= i < |all| ==> (all[i].Tidy? <==> i >= 2))
  {
    var all := [pass1] + rest;
    assert all[1] == rest[0];
    forall i | 2 <= i < |all|
      ensures all[i].Tidy?
    {
      assert all[i] == rest[i - 1];
    }
    if AttemptedAnyRemoval(all) {
      var i :| 0 <= i < |all| && all[i].Tidy?;
      assert rest[i - 1] == all[i];
    }
    if AttemptedAnyRemoval(rest) {
      var i :| 0 <= i < |rest| && rest[i].Tidy?;
      assert all[i + 1] == rest[i];
    }
  }

  /** The outcome of a removal changes only what is logged. */
  lemma RemovalOutcomeOnlyLogged(g: Globals, filePath: string, codecType: int, fsArgument: bool,
                                 targetSize: Option<real>, o: Outcomes, o': Outcomes)
    requires o.pass1Ok == o'.pass1Ok && o.pass2Ok == o'.pass2Ok
    ensures VideoEncode(g, filePath, codecType, fsArgument, targetSize, o).globals
         == VideoEncode(g, filePath, codecType, fsArgument, targetSize, o').globals
  {
  }

  /** A single ffmpeg run writing `output`: a failure raises `encodeError`
      and leaves `encodingNow` as it was, a success clears `encodingNow`. */
  function SinglePassRun(g: Globals, output: string, ok: bool): (r: Run)
    ensures r.effects == [RunPass(SinglePass, output, None, g)]
    ensures r.globals.encodeError == (g.encodeError || !ok)
    ensures r.globals.encodingNow == (g.encodingNow && !ok)
    ensures r.globals.(encodeError := g.encodeError, encodingNow := g.encodingNow) == g
  {
    var run := [RunPass(SinglePass, output, None, g)];
    if !ok then Run(g.(encodeError := true), run)
    else Run(g.(encodingNow := false), run)
  }

  /** `audioEncode(filePath, bitrate, codecType, duration)`. */
  function AudioEncode(g: Globals, filePath: string, codecType: int, ok: bool): (r: Run)
    // one uncapped pass, writing beside the input with the codec's suffix
    ensures |r.effects| == 1 && r.effects[0].RunPass? && r.effects[0].stage == SinglePass
    ensures r.effects[0].fsLimit.None?
    ensures r.effects[0].output == AudioOutput(filePath, codecType)
    ensures r.globals.encodeError == (g.encodeError || !ok)
    ensures r.globals.encodingNow == (g.encodingNow && !ok)
    // no other flag changes, and the run sees the flags as the caller left them
    ensures r.globals.(encodeError := g.encodeError, encodingNow := g.encodingNow) == g
    ensures r.effects[0].during == g
  {
    SinglePassRun(g, AudioOutput(filePath, codecType), ok)
  }

  /** `gifConvert(filePath)`. */
  function GifConvert(g: Globals, filePath: string, ok: bool): (r: Run)
    ensures |r.effects| == 1 && r.effects[0].RunPass? && r.effects[0].stage == SinglePass
    ensures r.effects[0].fsLimit.None?
    ensures r.effects[0].output == GifOutput(filePath)
    ensures r.globals.encodeError == (g.encodeError || !ok)
    ensures r.globals.encodingNow == (g.encodingNow && !ok)
    // no other flag changes, and the run sees the flags as the caller left them
    ensures r.globals.(encodeError := g.encodeError, encodingNow := g.encodingNow) == g
    ensures r.effects[0].during == g
  {
    SinglePassRun(g, GifOutput(filePath), ok)
  }
}

=== FILE: filepath.dfy ===
/** Simplified versions of Go's `path/filepath` functions `Base`, `Dir` and
    `Ext` and of `strings.TrimSuffix`, for the Windows build the tool targets:
    both `/` and `\` separate path elements and `\` is the separator written
    back. Volume names ("C:"), "." and ".." elements and runs of separators
    inside a path are not cleaned the way `filepath.Clean` would. */
module FilePath {

  const Separator: char := '\\'

  predicate IsSeparator(c: char) {
    c == '/' || c == '\\'
  }

  /** `p` holds at least one character that is not a separator. */
  predicate HasElement(p: string) {
    exists j | 0 <= j < |p| :: !IsSeparator(p[j])
  }

  predicate NoSeparator(s: string) {
    forall j :: 0 <= j < |s| ==> !IsSeparator(s[j])
  }

  /** Index just past the last separator of `p`, or 0 when `p` has none. */
  function AfterLastSeparator(p: string): (i: nat)
    ensures i <= |p|
    ensures i > 0 ==> IsSeparator(p[i - 1])
    ensures forall j :: i <= j < |p| ==> !IsSeparator(p[j])
  {
    if |p| == 0 then 0
    else if IsSeparator(p[|p| - 1]) then |p|
    else AfterLastSeparator(p[..|p| - 1])
  }

  /** `p` without its trailing separators. */
  function TrimTrailingSeparators(p: string): (r: string)
    ensures |r| <= |p| && r == p[..|r|]
    ensures r == "" || !IsSeparator(r[|r| - 1])
    ensures forall j :: |r| <= j < |p| ==> IsSeparator(p[j])
  {
    if |p| == 0 || !IsSeparator(p[|p| - 1]) then p
    else TrimTrailingSeparators(p[..|p| - 1])
  }

  /** Every `/` written as `\`, as `filepath.Clean` does on Windows. */
  function FromSlash(s: string): (r: string)
    ensures |r| == |s|
    ensures forall j :: 0 <= j < |s| ==> r[j] == (if s[j] == '/' then Separator else s[j])
  {
    seq(|s|, j requires 0 <= j < |s| => if s[j] == '/' then Separator else s[j])
  }

  /** The last element of `p` (`filepath.Base`): "." for the empty path and a
      single separator for a path made only of separators. */
  function Base(p: string): (r: string)
    ensures r != ""
    ensures p == "" ==> r == "."
    ensures p != "" && !HasElement(p) ==> r == [Separator]
  {
    if p == "" then "."
    else
      var t := TrimTrailingSeparators(p);
      if t == "" then
        assert !HasElement(p) by {
          forall j | 0 <= j < |p| ensures IsSeparator(p[j]) { }
        }
        [Separator]
      else
        assert HasElement(p) by { assert !IsSeparator(p[|t| - 1]); }
        t[AfterLastSeparator(t)..]
  }

  /** All but the last element of `p` (`filepath.Dir`): "." when `p` has no
      separator, a single separator when only separators precede the last
      element, and otherwise the text before the last separator with
      trailing separators removed and `/` written as `\`. */
  function Dir(p: string): (r: string)
    ensures r != ""
    ensures '/' !in r
    ensures AfterLastSeparator(p) == 0 ==> r == "."
  {
    var q := p[..AfterLastSeparator(p)];
    if q == "" then "."
    else
      var t := TrimTrailingSeparators(q);
      if t == "" then [Separator] else FromSlash(t)
  }

  /** The extension of `p` (`filepath.Ext`): the suffix starting at the last
      "." of the final element, or "" when that element has no ".". */
  function Ext(p: string): (r: string)
    ensures |r| <= |p| && r == p[|p| - |r|..]
    ensures r == "" || r[0] == '.'
    ensures forall j :: 1 <= j < |r| ==> r[j] != '.' && !IsSeparator(r[j])
    ensures r == "" ==> forall j :: AfterLastSeparator(p) <= j < |p| ==> p[j] != '.'
  {
    if |p| == 0 || IsSeparator(p[|p| - 1]) then ""
    else if p[|p| - 1] == '.' then "."
    else
      var e := Ext(p[..|p| - 1]);
      if e == "" then "" else e + [p[|p| - 1]]
  }

  /** `strings.TrimSuffix`: `s` without `suffix` when it ends with it, else `s`. */
  function TrimSuffix(s: string, suffix: string): (r: string)
    ensures |suffix| <= |s| && s[|s| - |suffix|..] == suffix ==> r + suffix == s
    ensures !(|suffix| <= |s| && s[|s| - |suffix|..] == suffix) ==> r == s
  {
    if |suffix| <= |s| && s[|s| - |suffix|..] == suffix then s[..|s| - |suffix|] else s
  }

  /** The base name with its extension cut off. */
  function Stem(p: string): string {
    var b := Base(p);
    TrimSuffix(b, Ext(b))
  }

  /** The stem followed by the extension gives back the base name. */
  lemma StemPlusExt(p: string)
    ensures Stem(p) + Ext(Base(p)) == Base(p)
  {
  }

  /** For a path with at least one element, `Base` is that last element: a
      non-empty run of non-separators that is preceded by a separator or the
      start of the path and followed only by separators. */
  lemma BaseIsLastElement(p: string) returns (a: nat)
    requires HasElement(p)
    ensures a + |Base(p)| <= |p| && p[a..a + |Base(p)|] == Base(p)
    ensures a == 0 || IsSeparator(p[a - 1])
    ensures forall j :: a + |Base(p)| <= j < |p| ==> IsSeparator(p[j])
    ensures NoSeparator(Base(p))
  {
    var t := TrimTrailingSeparators(p);
    var k :| 0 <= k < |p| && !IsSeparator(p[k]);
    assert k < |t|;
    a := AfterLastSeparator(t);
    assert Base(p) == t[a..];
    assert p[a..|t|] == t[a..];
  }

  /** The stem of a path with at least one element has no separator. */
  lemma StemHasNoSeparator(p: string)
    requires HasElement(p)
    ensures NoSeparator(Stem(p))
  {
    var _ := BaseIsLastElement(p);
    StemPlusExt(p);
    var b := Base(p);
    assert Stem(p) == b[..|Stem(p)|];
  }

  /** `Dir` and `Base` split a path at its last separator: when exactly one
      separator precedes the last element, that element ends the path and
      something other than separators comes before, the path (with `/`
      written as `\`) is `Dir + \ + Base`. */
  lemma DirSeparatorBase(p: string)
    requires 2 <= AfterLastSeparator(p) < |p|
    requires !IsSeparator(p[AfterLastSeparator(p) - 2])
    ensures FromSlash(p) == Dir(p) + [Separator] + Base(p)
  {
    FromSlashAtLastSeparator(p);
    BaseWithoutTrailingSeparator(p);
    DirBeforeSingleSeparator(p);
  }

  lemma FromSlashAtLastSeparator(p: string)
    requires 0 < AfterLastSeparator(p)
    ensures var i := AfterLastSeparator(p);
      FromSlash(p) == FromSlash(p[..i - 1]) + [Separator] + p[i..]
  {
    var i := AfterLastSeparator(p);
    assert NoSeparator(p[i..]);
    var d, c, e := p[..i - 1], p[i - 1], p[i..];
    assert p == (d + [c]) + e;
    FromSlashConcat(d + [c], e);
    FromSlashConcat(d, [c]);
    assert FromSlash([c]) == [Separator];
    FromSlashKeeps(e);
  }

  lemma BaseWithoutTrailingSeparator(p: string)
    requires |p| > 0 && !IsSeparator(p[|p| - 1])
    ensures Base(p) == p[AfterLastSeparator(p)..]
  {
    assert TrimTrailingSeparators(p) == p;
  }

  lemma DirBeforeSingleSeparator(p: string)
    requires 2 <= AfterLastSeparator(p)
    requires !IsSeparator(p[AfterLastSeparator(p) - 2])
    ensures Dir(p) == FromSlash(p[..AfterLastSeparator(p) - 1])
  {
    var a := AfterLastSeparator(p);
    var q := p[..a];
    assert q[..|q| - 1] == p[..a - 1];
    TrimOneSeparator(q);
  }

  lemma FromSlashConcat(x: string, y: string)
    ensures FromSlash(x + y) == FromSlash(x) + FromSlash(y)
  {
  }

  /** `FromSlash` leaves no `/`, is idempotent, and keeps every separator a
      separator and every other character as it was. */
  lemma FromSlashWritesBackslash(s: string)
    ensures '/' !in FromSlash(s)
    ensures FromSlash(FromSlash(s)) == FromSlash(s)
    ensures forall j :: 0 <= j < |s| ==>
      IsSeparator(FromSlash(s)[j]) == IsSeparator(s[j]) && (!IsSeparator(s[j]) ==> FromSlash(s)[j] == s[j])
  {
  }

  lemma FromSlashKeeps(s: string)
    requires NoSeparator(s)
    ensures FromSlash(s) == s
  {
  }

  lemma TrimOneSeparator(q: string)
    requires |q| >= 2 && IsSeparator(q[|q| - 1]) && !IsSeparator(q[|q| - 2])
    ensures TrimTrailingSeparators(q) == q[..|q| - 1]
  {
  }
}

=== FILE: passlogs.dfy ===
/** Removal of the two-pass statistics files that ffmpeg leaves in the
    working directory, shared by both encoder variants. Each removal is
    attempted on its own; a failed removal is only logged. */
module PassLogs {

  const PassLog: string := "./ffmpeg2pass-0.log"
  const PassMbtree: string := "./ffmpeg2pass-0.log.mbtree"

  /** One step of the clean-up: a removal attempt, or the log line written
      when that attempt failed. */
  datatype Removal = Remove(name: string) | LogFailure(name: string)

  /** Whether each of the two removals succeeds. */
  datatype RemovalOutcomes = RemovalOutcomes(logOk: bool, mbtreeOk: bool)

  /** The clean-up after a successful second pass. */
  function RemoveLogs(o: RemovalOutcomes): (r: seq<Removal>)
    // both files are always attempted, the log first
    ensures |r| >= 2 && r[0] == Remove(PassLog) && Remove(PassMbtree) in r
    // nothing but the two files is touched
    ensures forall i :: 0 <= i < |r| ==> r[i].name == PassLog || r[i].name == PassMbtree
    // a failure line appears exactly for a removal that failed
    ensures LogFailure(PassLog) in r <==> !o.logOk
    ensures LogFailure(PassMbtree) in r <==> !o.mbtreeOk
  {
    [Remove(PassLog)]
    + (if o.logOk then [] else [LogFailure(PassLog)])
    + [Remove(PassMbtree)]
    + (if o.mbtreeOk then [] else [LogFailure(PassMbtree)])
  }

  /** Each file is removed exactly once, and a failure line, when there is
      one, comes right after the removal it reports. */
  lemma RemoveLogsOnce(o: RemovalOutcomes)
    ensures |RemoveLogs(o)| == 2 + (if o.logOk then 0 else 1) + (if o.mbtreeOk then 0 else 1)
    ensures var r := RemoveLogs(o);
      forall i :: 0 <= i < |r| && r[i].LogFailure? ==> 0 < i && r[i - 1] == Remove(r[i].name)
  {
  }

  /** The clean-up steps as a caller's effects, one for one and in order. */
  function Tagged<E>(steps: seq<Removal>, tag: Removal -> E): (r: seq<E>)
    ensures |r| == |steps|
    ensures forall i :: 0 <= i < |steps| ==> r[i] == tag(steps[i])
  {
    seq(|steps|, i requires 0 <= i < |steps| => tag(steps[i]))
  }
}

=== FILE: progress.dfy ===
/** The text-scanning body of `TempTCPProgress`: after every read the
    listener looks at all text received so far, takes the digits of the
    last `out_time_ms=<digits>` match, lets `progress=end` override them,
    and falls back to "Starting..."; the shared progress string is
    reassigned, and a line logged, only when that value changes.
    The network listener itself is not modelled: the reads arrive as a
    sequence of chunks. */
module Progress {
  import opened Wrappers
  import opened Strings

  const OutTimeKey: string := "out_time_ms="
  const EndMarker: string := "progress=end"
  const StartingLabel: string := "Starting..."
  const CompleteLabel: string := "Complete"

  /** The largest value of Go's 64-bit `int`. */
  const MaxInt: nat := 0x7fff_ffff_ffff_ffff

  predicate IsDigit(c: char) {
    '0' <= c <= '9'
  }

  predicate AllDigits(s: string) {
    forall j :: 0 <= j < |s| ==> IsDigit(s[j])
  }

  // ---------------------------------------------------------------------
  // The regular expression `out_time_ms=(\d+)`
  // ---------------------------------------------------------------------

  /** Length of the run of digits that starts at `i`. */
  function DigitRunLength(s: string, i: nat): (n: nat)
    requires i <= |s|
    ensures i + n <= |s|
    ensures forall j :: i <= j < i + n ==> IsDigit(s[j])
    ensures i + n == |s| || !IsDigit(s[i + n])
    decreases |s| - i
  {
    if i < |s| && IsDigit(s[i]) then 1 + DigitRunLength(s, i + 1) else 0
  }

  /** The pattern matches at `i`: the key followed by at least one digit. */
  predicate MatchAt(s: string, i: int) {
    && 0 <= i
    && i + |OutTimeKey| < |s|
    && s[i..i + |OutTimeKey|] == OutTimeKey
    && IsDigit(s[i + |OutTimeKey|])
  }

  /** The digits a match at `i` captures: all of them, `\d+` being greedy. */
  function CapturedAt(s: string, i: nat): (ds: string)
    requires MatchAt(s, i)
    ensures |ds| >= 1 && AllDigits(ds)
  {
    var start := i + |OutTimeKey|;
    s[start..start + DigitRunLength(s, start)]
  }

  /** The captures `FindAllStringSubmatch` reports from position `i` on:
      the leftmost match is taken and the search resumes after it. */
  function MatchesFrom(s: string, i: nat): seq<string>
    requires i <= |s|
    decreases |s| - i
  {
    if i == |s| then []
    else if MatchAt(s, i) then
      var next := i + |OutTimeKey| + DigitRunLength(s, i + |OutTimeKey|);
      [CapturedAt(s, i)] + MatchesFrom(s, next)
    else MatchesFrom(s, i + 1)
  }

  /** The capture of the last match, as the listener picks it. */
  function LastCapture(s: string): Option<string> {
    var ms := MatchesFrom(s, 0);
    if |ms| == 0 then None else Some(Last(ms))
  }

  /** Reference definition: the rightmost position below `hi` where the
      pattern matches. */
  function RightmostMatch(s: string, hi: nat): (r: Option<nat>)
    requires hi <= |s|
    ensures r.Some? ==> r.value < hi && MatchAt(s, r.value)
    ensures r.Some? ==> forall j :: r.value < j < hi ==> !MatchAt(s, j)
    ensures r.None? ==> forall j :: 0 <= j < hi ==> !MatchAt(s, j)
  {
    if hi == 0 then None
    else if MatchAt(s, hi - 1) then Some(hi - 1)
    else RightmostMatch(s, hi - 1)
  }

  /** No match starts inside the text another match consumed: the key's
      only "o" is its first character and digits are not "o". */
  lemma NoMatchInsideMatch(s: string, i: nat, j: int)
    requires MatchAt(s, i)
    requires i < j < i + |OutTimeKey| + DigitRunLength(s, i + |OutTimeKey|)
    ensures !MatchAt(s, j)
  {
    assert s[j] != 'o' by {
      if j < i + |OutTimeKey| {
        assert s[i..i + |OutTimeKey|][j - i] == s[j];
      } else {
        assert IsDigit(s[j]);
      }
    }
    if j + |OutTimeKey| <= |s| {
      assert s[j..j + |OutTimeKey|][0] == s[j];
    }
  }

  /** The left-to-right scan from `i` finds a match exactly when one starts at
      or after `i`, and its last capture is that of the rightmost match. */
  predicate ScanAgrees(s: string, i: nat)
    requires i <= |s|
  {
    var ms := MatchesFrom(s, i);
    var rm := RightmostMatch(s, |s|);
    && (|ms| == 0 <==> rm.None? || rm.value < i)
    && (|ms| > 0 ==> rm.Some? && Last(ms) == CapturedAt(s, rm.value))
  }

  lemma {:induction false} ScanFromFindsRightmost(s: string, i: nat)
    requires i <= |s|
    ensures var ms := MatchesFrom(s, i);
      var rm := RightmostMatch(s, |s|);
      && (|ms| == 0 <==> rm.None? || rm.value < i)
      && (|ms| > 0 ==> rm.Some? && Last(ms) == CapturedAt(s, rm.value))
    decreases |s| - i
  {
    if i == |s| {
      assert MatchesFrom(s, i) == [];
    } else if MatchAt(s, i) {
      ScanFromFindsRightmost(s, i + |OutTimeKey| + DigitRunLength(s, i + |OutTimeKey|));
      ScanStepOverMatch(s, i);
    } else {
      ScanFromFindsRightmost(s, i + 1);
      ScanStepPastNonMatch(s, i);
    }
  }

  /** A match at `i` is taken whole; if nothing is found after it, it is the
      rightmost match, since no match starts inside it. */
  lemma ScanStepOverMatch(s: string, i: nat)
    requires i < |s| && MatchAt(s, i)
    requires ScanAgrees(s, i + |OutTimeKey| + DigitRunLength(s, i + |OutTimeKey|))
    ensures ScanAgrees(s, i)
  {
    var next := i + |OutTimeKey| + DigitRunLength(s, i + |OutTimeKey|);
    if |MatchesFrom(s, next)| == 0 {
      OnlyMatchLeft(s, i);
    } else {
      LaterMatchesDecide(s, i);
    }
  }

  /** A match with no further match after its text is the rightmost one. */
  lemma OnlyMatchLeft(s: string, i: nat)
    requires i < |s| && MatchAt(s, i)
    requires var next := i + |OutTimeKey| + DigitRunLength(s, i + |OutTimeKey|);
      ScanAgrees(s, next) && |MatchesFrom(s, next)| == 0
    ensures ScanAgrees(s, i)
  {
    MatchesAfterMatch(s, i);
    RightmostIsLastMatch(s, i);
  }

  /** A match followed by more matches leaves the last of those as the answer. */
  lemma LaterMatchesDecide(s: string, i: nat)
    requires i < |s| && MatchAt(s, i)
    requires var next := i + |OutTimeKey| + DigitRunLength(s, i + |OutTimeKey|);
      ScanAgrees(s, next) && |MatchesFrom(s, next)| > 0
    ensures ScanAgrees(s, i)
  {
    MatchesAfterMatch(s, i);
  }

  /** The matches from a match are its capture followed by the matches after its text. */
  lemma MatchesAfterMatch(s: string, i: nat)
    requires i < |s| && MatchAt(s, i)
    ensures var next := i + |OutTimeKey| + DigitRunLength(s, i + |OutTimeKey|);
      var ms, rest := MatchesFrom(s, i), MatchesFrom(s, next);
      && |ms| == 1 + |rest|
      && ms[0] == CapturedAt(s, i)
      && (|rest| > 0 ==> Last(ms) == Last(rest))
  {
    var next := i + |OutTimeKey| + DigitRunLength(s, i + |OutTimeKey|);
    MatchesFromUnfold(s, i);
    ConsFacts(CapturedAt(s, i), MatchesFrom(s, next), MatchesFrom(s, i));
  }

  lemma MatchesFromUnfold(s: string, i: nat)
    requires i < |s| && MatchAt(s, i)
    ensures MatchesFrom(s, i)
         == [CapturedAt(s, i)] + MatchesFrom(s, i + |OutTimeKey| + DigitRunLength(s, i + |OutTimeKey|))
  {
  }

  /** A sequence built as `[x] + rest` starts with `x` and ends as `rest` does. */
  lemma ConsFacts<T>(x: T, rest: seq<T>, xs: seq<T>)
    requires xs == [x] + rest
    ensures |xs| == 1 + |rest| && xs[0] == x
    ensures |rest| > 0 ==> Last(xs) == Last(rest)
  {
  }

  /** A match at `i` means the rightmost match is at `i` or later. */
  lemma RightmostFromMatch(s: string, i: nat)
    requires MatchAt(s, i)
    ensures RightmostMatch(s, |s|).Some? && RightmostMatch(s, |s|).value >= i
  {
  }

  /** When no match starts after a match at `i`'s text, that match is the
      rightmost one. */
  lemma RightmostIsLastMatch(s: string, i: nat)
    requires MatchAt(s, i)
    requires var rm := RightmostMatch(s, |s|);
      rm.None? || rm.value < i + |OutTimeKey| + DigitRunLength(s, i + |OutTimeKey|)
    ensures RightmostMatch(s, |s|) == Some(i)
  {
    var rm := RightmostMatch(s, |s|);
    RightmostFromMatch(s, i);
    if rm.value != i {
      NoMatchInsideMatch(s, i, rm.value);
    }
  }

  /** A position where nothing matches is skipped. */
  lemma ScanStepPastNonMatch(s: string, i: nat)
    requires i < |s| && !MatchAt(s, i)
    requires ScanAgrees(s, i + 1)
    ensures ScanAgrees(s, i)
  {
    assert MatchesFrom(s, i) == MatchesFrom(s, i + 1);
  }

  /** The listener's pick is the capture of the rightmost match. */
  lemma LastCaptureIsRightmost(s: string)
    ensures LastCapture(s).None? <==> forall j :: 0 <= j < |s| ==> !MatchAt(s, j)
    ensures LastCapture(s).Some? ==>
      RightmostMatch(s, |s|).Some? && LastCapture(s).value == CapturedAt(s, RightmostMatch(s, |s|).value)
  {
    ScanFromFindsRightmost(s, 0);
  }

  // ---------------------------------------------------------------------
  // strconv.Atoi on the captured digits
  // ---------------------------------------------------------------------

  function DigitValue(c: char): nat
    requires IsDigit(c)
  {
    (c as int) - ('0' as int)
  }

  /** The number a string of decimal digits denotes. */
  function DecimalValue(ds: string): nat
    requires AllDigits(ds)
  {
    if |ds| == 0 then 0
    else 10 * DecimalValue(ds[..|ds| - 1]) + DigitValue(ds[|ds| - 1])
  }

  function Pow10(n: nat): (p: nat)
    ensures p >= 1
  {
    if n == 0 then 1 else 10 * Pow10(n - 1)
  }

  /** `strconv.Atoi` of a digit string with its error ignored: a value past
      the largest `int` comes back as that `int`. */
  function Atoi(ds: string): (n: nat)
    requires AllDigits(ds)
    ensures n <= MaxInt
    ensures DecimalValue(ds) <= MaxInt ==> n == DecimalValue(ds)
    ensures DecimalValue(ds) > MaxInt ==> n == MaxInt
  {
    if DecimalValue(ds) <= MaxInt then DecimalValue(ds) else MaxInt
  }

  /** `k` digits denote a number below 10^k. */
  lemma {:induction false} DecimalValueBelowPow10(ds: string)
    requires AllDigits(ds)
    ensures DecimalValue(ds) < Pow10(|ds|)
  {
    if |ds| > 0 {
      DecimalValueBelowPow10(ds[..|ds| - 1]);
    }
  }

  lemma {:induction false} Pow10Monotone(m: nat, n: nat)
    requires m <= n
    ensures Pow10(m) <= Pow10(n)
    decreases n
  {
    if m < n {
      Pow10Monotone(m, n - 1);
    }
  }

  /** Up to 18 digits are read exactly; only longer runs can be clamped. */
  lemma ShortRunsReadExactly(ds: string)
    requires AllDigits(ds) && |ds| <= 18
    ensures Atoi(ds) == DecimalValue(ds)
  {
    DecimalValueBelowPow10(ds);
    Pow10Monotone(|ds|, 18);
    assert Pow10(6) == 1_000_000;
    assert Pow10(12) == 1_000_000_000_000;
    assert Pow10(18) == 1_000_000_000_000_000_000;
  }

  // ---------------------------------------------------------------------
  // The progress value and the read loop
  // ---------------------------------------------------------------------

  /** What the accumulated text says: nothing yet, the latest `out_time_ms`
      in microseconds, or the end of the encode. */
  datatype Progress = Starting | Fraction(outTimeMs: nat) | Complete

  /** The progress value of the text received so far. */
  function Scan(data: string): Progress {
    var cap := LastCapture(data);
    var fromMatch := if cap.Some? && AllDigits(cap.value) then Fraction(Atoi(cap.value)) else Starting;
    if Contains(data, EndMarker) then Complete else fromMatch
  }

  /** What the value says about the text: "Complete" exactly when the end
      marker occurs, "Starting" exactly when neither the marker nor any
      `out_time_ms` match does, and otherwise the number the rightmost
      match's digits denote. */
  lemma ScanMeaning(data: string)
    ensures Scan(data) == Complete <==> Contains(data, EndMarker)
    ensures Scan(data) == Starting <==>
      !Contains(data, EndMarker) && forall j :: 0 <= j < |data| ==> !MatchAt(data, j)
    ensures Scan(data).Fraction? ==>
      var rm := RightmostMatch(data, |data|);
      rm.Some? && Scan(data).outTimeMs == Atoi(CapturedAt(data, rm.value))
  {
    LastCaptureIsRightmost(data);
  }

  /** Once the end marker has arrived the value stays "Complete". */
  lemma CompleteIsFinal(data: string, more: string)
    requires Scan(data) == Complete
    ensures Scan(data + more) == Complete
  {
    ContainsExtends(data, more, EndMarker);
  }

  /** The progress string for a value; `render` stands for the two-decimal
      formatting of the fraction of the total duration, and an empty
      rendering reads as "Starting...". */
  function Label(p: Progress, render: nat -> string): (r: string)
    // the progress string is never left empty
    ensures r != ""
    // the end marker and the absence of any value read as fixed strings
    ensures p.Complete? ==> r == CompleteLabel
    ensures p.Starting? ==> r == StartingLabel
    // a fraction reads as its rendering, or as "Starting..." when that is empty
    ensures p.Fraction? && render(p.outTimeMs) == "" ==> r == StartingLabel
    ensures p.Fraction? && render(p.outTimeMs) != "" ==> r == render(p.outTimeMs)
  {
    match p
    case Starting => StartingLabel
    case Complete => CompleteLabel
    case Fraction(c) => if render(c) == "" then StartingLabel else render(c)
  }

  /** What the progress string says about the text received: "Complete"
      once `progress=end` has arrived, whatever follows it; "Starting..."
      while neither the marker nor an `out_time_ms` value has arrived;
      otherwise the rendering of the rightmost value, unless that is empty. */
  lemma LabelMeaning(data: string, more: string, render: nat -> string)
    ensures Contains(data, EndMarker) ==> Label(Scan(data + more), render) == CompleteLabel
    ensures !Contains(data, EndMarker) && (forall j :: 0 <= j < |data| ==> !MatchAt(data, j)) ==>
      Label(Scan(data), render) == StartingLabel
    ensures !Contains(data, EndMarker) && (exists j :: 0 <= j < |data| && MatchAt(data, j)) ==>
      var rm := RightmostMatch(data, |data|);
      var shown := render(Atoi(CapturedAt(data, rm.value)));
      rm.Some? && Label(Scan(data), render) == (if shown == "" then StartingLabel else shown)
  {
    ScanMeaning(data);
    if Contains(data, EndMarker) {
      CompleteIsFinal(data, more);
    }
  }

  /** All chunks read so far, in order. */
  function Concat(chunks: seq<string>): string {
    if |chunks| == 0 then "" else Concat(chunks[..|chunks| - 1]) + Last(chunks)
  }

  /** The progress string after each read. */
  function LabelsAfterEachRead(chunks: seq<string>, render: nat -> string): (r: seq<string>)
    ensures |r| == |chunks|
  {
    if |chunks| == 0 then []
    else LabelsAfterEachRead(chunks[..|chunks| - 1], render) + [Label(Scan(Concat(chunks)), render)]
  }

  /** The entries of `labels` that differ from the one before them, the
      first being compared with `initial`. */
  function Changes(labels: seq<string>, initial: string): seq<string> {
    if |labels| == 0 then []
    else
      var previous := if |labels| == 1 then initial else labels[|labels| - 2];
      Changes(labels[..|labels| - 1], initial)
        + (if Last(labels) != previous then [Last(labels)] else [])
  }

  /** Reading one more chunk adds its label, and a change entry exactly
      when that label differs from the previous one. */
  lemma ReadOneMore(chunks: seq<string>, k: nat, render: nat -> string)
    requires k < |chunks|
    ensures Concat(chunks[..k + 1]) == Concat(chunks[..k]) + chunks[k]
    ensures var before := LabelsAfterEachRead(chunks[..k], render);
      var cp := Label(Scan(Concat(chunks[..k + 1])), render);
      var previous := if k == 0 then StartingLabel else Last(before);
      Changes(LabelsAfterEachRead(chunks[..k + 1], render), StartingLabel)
        == Changes(before, StartingLabel) + (if cp != previous then [cp] else [])
  {
    var prefix := chunks[..k + 1];
    assert prefix[..k] == chunks[..k];
    var before := LabelsAfterEachRead(chunks[..k], render);
    var cp := Label(Scan(Concat(prefix)), render);
    var labels := LabelsAfterEachRead(prefix, render);
    assert labels == before + [cp];
    assert labels[..k] == before;
    if k > 0 {
      assert labels[|labels| - 2] == Last(before);
    }
  }

  /** The label after `k` reads is the last of the labels so far. */
  lemma LastLabel(chunks: seq<string>, k: nat, render: nat -> string)
    requires 0 < k <= |chunks|
    ensures Last(LabelsAfterEachRead(chunks[..k], render)) == Label(Scan(Concat(chunks[..k])), render)
  {
  }

  /** No entry of `log` equals the one right after it. */
  predicate NoRepeatInARow(log: seq<string>) {
    forall j, k | 0 <= j < |log| && 0 <= k < |log| && k == j + 1 :: log[j] != log[k]
  }

  /** The change log never repeats an entry twice in a row, never starts
      with the initial value, ends with the last value when it is not empty,
      and is empty only when every value equals the initial one. */
  predicate IsChangeLog(log: seq<string>, labels: seq<string>, initial: string) {
    && |log| <= |labels|
    && (NoRepeatInARow(log))
    && (|log| > 0 ==> log[0] != initial && Last(log) == Last(labels))
    && (|log| == 0 ==> forall j :: 0 <= j < |labels| ==> labels[j] == initial)
  }

  lemma {:induction false} ChangesFacts(labels: seq<string>, initial: string)
    ensures var log := Changes(labels, initial);
      && |log| <= |labels|
      && (NoRepeatInARow(log))
      && (|log| > 0 ==> log[0] != initial && Last(log) == Last(labels))
      && (|log| == 0 ==> forall j :: 0 <= j < |labels| ==> labels[j] == initial)
  {
    if |labels| > 0 {
      ChangesFacts(labels[..|labels| - 1], initial);
      ChangesStep(labels, initial);
    }
  }

  /** One more value keeps the change log a change log. */
  lemma ChangesStep(labels: seq<string>, initial: string)
    requires |labels| > 0
    requires IsChangeLog(Changes(labels[..|labels| - 1], initial), labels[..|labels| - 1], initial)
    ensures IsChangeLog(Changes(labels, initial), labels, initial)
  {
    var log0 := Changes(labels[..|labels| - 1], initial);
    if Last(labels) != Previous(labels, initial) {
      AppendChange(log0, labels, initial);
    } else {
      RepeatNoChange(log0, labels, initial);
    }
  }

  /** The value the last of `labels` is compared with. */
  function Previous(labels: seq<string>, initial: string): string
    requires |labels| > 0
  {
    if |labels| == 1 then initial else labels[|labels| - 2]
  }

  /** A last value that differs from the previous one extends the log by it. */
  lemma AppendChange(log0: seq<string>, labels: seq<string>, initial: string)
    requires |labels| > 0
    requires IsChangeLog(log0, labels[..|labels| - 1], initial)
    requires Last(labels) != Previous(labels, initial)
    ensures IsChangeLog(log0 + [Last(labels)], labels, initial)
  {
    var init, x := labels[..|labels| - 1], Last(labels);
    var log := log0 + [x];
    if |log0| > 0 {
      assert Last(log0) == Last(init);
    } else if |init| > 0 {
      assert init[|init| - 1] == initial;
    }
    forall j, k | 0 <= j < |log| && 0 <= k < |log| && k == j + 1
      ensures log[j] != log[k]
    {
      if k < |log0| {
        assert log[j] == log0[j] && log[k] == log0[k];
      } else {
        assert log[j] == log0[|log0| - 1];
      }
    }
    assert log[0] != initial;
  }

  /** A last value equal to the previous one leaves the log as it was. */
  lemma RepeatNoChange(log0: seq<string>, labels: seq<string>, initial: string)
    requires |labels| > 0
    requires IsChangeLog(log0, labels[..|labels| - 1], initial)
    requires Last(labels) == Previous(labels, initial)
    ensures IsChangeLog(log0, labels, initial)
  {
    var init, x := labels[..|labels| - 1], Last(labels);
    if |log0| == 0 {
      assert x == initial by {
        if |init| > 0 { assert init[|init| - 1] == initial; }
      }
      forall j | 0 <= j < |labels|
        ensures labels[j] == initial
      {
        if j < |init| {
          assert labels[j] == init[j];
        }
      }
    } else {
      assert Last(init) == x;
    }
  }

  /** The log of a whole connection: no value twice in a row, never
      "Starting..." first, the final value last, empty only while the value
      never left "Starting...", and at most one line per read. */
  lemma LogShape(chunks: seq<string>, render: nat -> string)
    ensures var log, final := Changes(LabelsAfterEachRead(chunks, render), StartingLabel), Label(Scan(Concat(chunks)), render);
      && (NoRepeatInARow(log))
      && (|log| > 0 ==> log[0] != StartingLabel && Last(log) == final)
      && (|log| == 0 ==> final == StartingLabel)
      && |log| <= |chunks|
  {
    var labels := LabelsAfterEachRead(chunks, render);
    ChangesFacts(labels, StartingLabel);
    assert chunks[..|chunks|] == chunks;
    if |chunks| > 0 {
      LastLabel(chunks, |chunks|, render);
    }
  }

  /** The read loop: returns the final progress string and the values it
      logged, one per change. */
  method Listen(chunks: seq<string>, render: nat -> string) returns (progressStr: string, logged: seq<string>)
    // the final value depends only on the text received, not on how it was cut into reads
    ensures progressStr == Label(Scan(Concat(chunks)), render)
    // a line is logged exactly when the value changes
    // (what such a log looks like is `LogShape`)
    ensures logged == Changes(LabelsAfterEachRead(chunks, render), StartingLabel)
  {
    var data := "";
    progressStr := StartingLabel;
    logged := [];
    var k := 0;
    while k < |chunks|
      invariant 0 <= k <= |chunks|
      invariant data == Concat(chunks[..k])
      invariant progressStr == Label(Scan(data), render)
      invariant logged == Changes(LabelsAfterEachRead(chunks[..k], render), StartingLabel)
    {
      ReadOneMore(chunks, k, render);
      if k > 0 {
        LastLabel(chunks, k, render);
      }
      data := data + chunks[k];
      var cp := Label(Scan(data), render);
      if cp != progressStr {
        progressStr := cp;
        logged := logged + [cp];
      }
      k := k + 1;
    }
    assert chunks[..k] == chunks;
  }
}

=== FILE: strings.dfy ===
/** Character-level string helpers shared by the naming and scanning models.
    Strings are sequences of characters; no encoding is modelled. */
module Strings {

  /** Index of the first occurrence of `c` in `s`, or `|s|` when there is none. */
  function FirstIndex(s: string, c: char): (i: nat)
    ensures i <= |s|
    ensures i < |s| ==> s[i] == c
    ensures forall j :: 0 <= j < i ==> s[j] != c
  {
    if |s| == 0 then 0
    else if s[0] == c then 0
    else 1 + FirstIndex(s[1..], c)
  }

  /** Go's `strings.Split` for a one-character separator: the maximal pieces
      between occurrences of `sep`, always at least one (possibly empty) piece. */
  function Split(s: string, sep: char): (parts: seq<string>)
    ensures |parts| >= 1
    decreases |s|
  {
    var i := FirstIndex(s, sep);
    if i == |s| then [s]
    else [s[..i]] + Split(s[i + 1..], sep)
  }

  /** No piece of a split contains the separator. */
  lemma {:induction false} SplitPiecesOmitSeparator(s: string, sep: char)
    ensures forall k :: 0 <= k < |Split(s, sep)| ==> sep !in Split(s, sep)[k]
    decreases |s|
  {
    var i := FirstIndex(s, sep);
    if i < |s| {
      SplitPiecesOmitSeparator(s[i + 1..], sep);
    }
  }

  /** Go's `strings.Join` for a one-character separator. */
  function Join(parts: seq<string>, sep: char): string
    requires |parts| >= 1
  {
    if |parts| == 1 then parts[0]
    else parts[0] + [sep] + Join(parts[1..], sep)
  }

  function Last<T>(xs: seq<T>): T
    requires |xs| > 0
  {
    xs[|xs| - 1]
  }

  /** Joining the pieces of a split gives back the original string. */
  lemma {:induction false} SplitThenJoin(s: string, sep: char)
    ensures Join(Split(s, sep), sep) == s
    decreases |s|
  {
    var i := FirstIndex(s, sep);
    var parts := Split(s, sep);
    if i < |s| {
      var rest := s[i + 1..];
      assert parts == [s[..i]] + Split(rest, sep);
      assert parts[0] == s[..i] && parts[1..] == Split(rest, sep);
      SplitThenJoin(rest, sep);
      assert Join(parts, sep) == s[..i] + [sep] + rest;
      assert s == s[..i] + [sep] + rest;
    } else {
      assert parts == [s];
    }
  }

  /** Splitting a join of separator-free pieces gives back the pieces. */
  lemma {:induction false} JoinThenSplit(parts: seq<string>, sep: char)
    requires |parts| >= 1
    requires forall k :: 0 <= k < |parts| ==> sep !in parts[k]
    ensures Split(Join(parts, sep), sep) == parts
    decreases |parts|
  {
    if |parts| == 1 {
      assert FirstIndex(parts[0], sep) == |parts[0]|;
    } else {
      var tail := parts[1..];
      JoinThenSplit(tail, sep);
      SplitAtFirstSeparator(parts[0], Join(tail, sep), sep);
      assert parts == [parts[0]] + tail;
    }
  }

  /** Splitting `p + sep + t` with `sep` not in `p` yields `p` followed by the pieces of `t`. */
  lemma SplitAtFirstSeparator(p: string, t: string, sep: char)
    requires sep !in p
    ensures Split(p + [sep] + t, sep) == [p] + Split(t, sep)
  {
    var s := p + [sep] + t;
    assert s[|p|] == sep;
    forall j | 0 <= j < |p| ensures s[j] != sep {
      assert s[j] == p[j];
    }
    FirstIndexUnique(s, sep, |p|);
    assert s[..|p|] == p;
    assert s[|p| + 1..] == t;
  }

  /** The first-occurrence index is determined by the two facts that define it. */
  lemma FirstIndexUnique(s: string, c: char, i: nat)
    requires i < |s| && s[i] == c
    requires forall j :: 0 <= j < i ==> s[j] != c
    ensures FirstIndex(s, c) == i
  {
  }

  /** The last piece of a split is the suffix after the last separator. */
  lemma {:induction false} LastPieceIsSuffix(s: string, sep: char) returns (a: nat)
    ensures a <= |s|
    ensures Last(Split(s, sep)) == s[a..]
    ensures a == 0 || s[a - 1] == sep
    ensures sep !in s[a..]
    decreases |s|
  {
    var i := FirstIndex(s, sep);
    var parts := Split(s, sep);
    if i == |s| {
      assert parts == [s];
      a := 0;
      assert s[0..] == s;
    } else {
      var rest := s[i + 1..];
      var restParts := Split(rest, sep);
      assert parts == [s[..i]] + restParts;
      assert Last(parts) == Last(restParts);
      var b := LastPieceIsSuffix(rest, sep);
      a := i + 1 + b;
      assert s[a..] == rest[b..];
      assert s[a - 1] == (if b == 0 then s[i] else rest[b - 1]);
    }
  }

  /** `pat` occurs in `s` starting at index `i`. */
  predicate OccursAt(s: string, pat: string, i: int) {
    0 <= i <= |s| - |pat| && s[i..i + |pat|] == pat
  }

  /** `pat` occurs somewhere in `s` (Go's `strings.Contains`). */
  predicate Contains(s: string, pat: string) {
    exists i | 0 <= i <= |s| - |pat| :: OccursAt(s, pat, i)
  }

  /** `pat` occurs in `s` exactly when `s` is some text, then `pat`, then some more text. */
  lemma ContainsIsInfix(s: string, pat: string)
    ensures Contains(s, pat) <==> exists k | 0 <= k <= |s| - |pat| :: s == s[..k] + pat + s[k + |pat|..]
  {
    if Contains(s, pat) {
      var k :| 0 <= k <= |s| - |pat| && OccursAt(s, pat, k);
      assert s == s[..k] + pat + s[k + |pat|..];
    }
    if exists k | 0 <= k <= |s| - |pat| :: s == s[..k] + pat + s[k + |pat|..] {
      var k :| 0 <= k <= |s| - |pat| && s == s[..k] + pat + s[k + |pat|..];
      assert s[k..k + |pat|] == (s[..k] + pat + s[k + |pat|..])[k..k + |pat|];
      assert OccursAt(s, pat, k);
    }
  }

  /** An occurrence survives appending more text. */
  lemma ContainsExtends(s: string, t: string, pat: string)
    requires Contains(s, pat)
    ensures Contains(s + t, pat)
  {
    var i :| 0 <= i <= |s| - |pat| && OccursAt(s, pat, i);
    assert (s + t)[i..i + |pat|] == s[i..i + |pat|];
    assert OccursAt(s + t, pat, i);
  }
}

=== FILE: wrappers.dfy ===
/** The optional-value datatype used for outcomes that may be absent
    (a failed numeric parse, a missing regular-expression match). */
module Wrappers {

  datatype Option<+T> = None | Some(value: T) {

    /** The wrapped value, or `default` when there is none. */
    function GetOr(default: T): T {
      match this
      case Some(v) => v
      case None => default
    }
  }
}
